=== FILE: README.md ===
# Campus marketplace: order ledger, cart and validators in Dafny

This project models the core of a campus marketplace backend and the small
list logic of its web client. Users register with an IIIT e-mail address.
They keep a cart of products and check out. Checkout turns every cart line
into its own order, and each order carries a one-time password (OTP) that
is stored only as a hash. The seller completes the order with the OTP the
buyer hands over.

The modules follow the program's structure:

- `Common`: identifiers, `Option` and the route outcome `Result`, whose
  `Error` is one of BadRequest (400), Forbidden (403), NotFound (404) and
  Internal (500).
- `Text`: ASCII lower-casing, suffix and substring tests, and decimal text.
- `Seqs`: `filter`, reversal and `Set`-based de-duplication on lists.
- `Crypto`: bcrypt, modelled as an injective hash.
- `ProductModel`, `OrderModel`, `UserModel`: the record shapes, the status
  enum and the schema validators.
- `Store`: the class `Db`. It holds the user, product and order collections
  and is updated in place by the routes. Its invariant `Valid` says:
  - every user passes the schema and has at most one cart line per product;
  - e-mails and transaction ids are unique;
  - orders and products name existing users;
  - each user's `orders` and `sellerOrders` lists are exactly the ids of
    the orders naming that user as buyer and as seller, in creation order.
- `OrderRoutes`, `CartRoutes`, `AuthRoutes`: the routes. A route that
  changes the store is a method that takes the `Db`, updates it in place
  and keeps `Valid`. Its effect is stated through a function or a state
  equation, and lemmas prove the promised properties of that function or
  state. Login and the three order queries change nothing and are
  functions over the collections.
- `ProductsPage`, `MyOrdersPage`: the client's product filter and its
  pending/bought split of orders.

Users and orders are numbered in creation order, so an id is also a
position in the store. Products live in a map, because a product can be
deleted while carts still refer to it. The caller of a route is a
parameter, standing for the authentication middleware. The random OTP
numbers and the uuid transaction ids are parameters, with their range and
their freshness stated as preconditions.

Two consequences of the code are worth stating plainly:
- Completing an already Completed order succeeds again
  (`OrderRoutes.CompletionIdempotent`), and OTP regeneration is allowed
  whatever the status (`OrderRoutes.Regeneration` succeeds exactly for the
  order's seller).
- No route ever sets Processed (`OrderRoutes.NeverProcessed`).

## Model

| member | source | states |
|---|---|---|
| Crypto.HashOf | backend/models/User.js:90-91 | a stored hash is never empty |
| Crypto.MatchesExactly | backend/models/User.js:99-101 | a hash matches the secret it was made from and no other secret |
| Text.Lower | frontend/src/pages/Products.jsx:56 | lower-casing keeps the length and maps each character through ASCII lower-casing |
| Text.LowerIdempotent | frontend/src/pages/Products.jsx:56 | lower-casing twice is lower-casing once |
| Text.ContainsAt | frontend/src/pages/Products.jsx:56 | `includes` holds exactly when the text occurs at some position |
| Text.ParseDecimalString | backend/routes/orders.js:64 | the decimal text of a number reads back as that number |
| Text.DecimalStringInjective | backend/routes/orders.js:64 | different numbers have different decimal texts |
| Text.DecimalLength | backend/routes/orders.js:64 | a number in [10^k, 10^(k+1)) is written with k+1 digits |
| Seqs.Filter | frontend/src/pages/Products.jsx:55-63 | the result holds only elements satisfying the test, and every element of the input that satisfies it |
| Seqs.FilterIsSubsequence | frontend/src/pages/Products.jsx:55 | filtering keeps the input's order: the result is a subsequence |
| Seqs.FilterCount | frontend/src/pages/Products.jsx:55-63 | filtering keeps every copy of an element that passes the test and no copy of one that fails it |
| Seqs.FilterPartition | frontend/src/pages/MyOrders.jsx:50-51 | filtering by a test and by its negation splits the list's multiset in two |
| Seqs.Reverse | backend/routes/orders.js:110 | element i of the result is element n-1-i of the input |
| Seqs.Dedupe | frontend/src/pages/Products.jsx:26-28 | the result has no duplicates and holds exactly the input's elements |
| Seqs.DedupeFirstOccurrence | frontend/src/pages/Products.jsx:26-28 | the distinct elements are listed in the order of their first occurrence in the input |
| OrderModel.CastStatus | backend/models/Order.js:40-44 | a missing status defaults to Pending; a text is accepted exactly when it names one of the three enum values, and then it is stored under that name; anything else is a validation error |
| OrderModel.StatusRoundTrip | backend/models/Order.js:40-44 | storing a status and casting it back gives the same status |
| OrderModel.IdsWhereSpec | backend/routes/orders.js:13-16 | a filter's answer lists exactly the ids of the orders it selects, each once, in ascending order |
| OrderModel.IdsWhereAppend | backend/routes/orders.js:86-91 | a new order extends a filter's answer by its id exactly when the filter selects it |
| OrderModel.IdsWhereExtend | backend/routes/orders.js:60-92 | a batch of new orders only appends the ids of the new selected orders |
| OrderModel.IdsWhereSameParties | backend/routes/orders.js:145 | changing an order's status or hash moves no id between buyer and seller answers |
| UserModel.CartQuantity | backend/models/User.js:10-14 | a cart line without a quantity gets 1, otherwise the given quantity |
| UserModel.IiitEmailByCharacters | backend/models/User.js:51-56 | an address is valid exactly when its last eleven characters, lower-cased, are "@iiit.ac.in" |
| UserModel.IiitEmailIgnoresCase | backend/models/User.js:53 | an address and its lower-cased form are valid together |
| UserModel.FullName | backend/models/User.js:104-106 | the full name is the first name, one space, then the last name |
| UserModel.PreSave | backend/models/User.js:87-96 | only the password changes; a modified password is replaced by its hash, an unmodified record is kept |
| UserModel.SaveKeepsLogin | backend/models/User.js:88 | saving without touching the password keeps the login working; hashing the hash again would break it |
| Store.PushOrder | backend/routes/orders.js:90 | the id is appended to the end of that user's buyer list; every other user and every other field is unchanged |
| Store.PushSellerOrder | backend/routes/orders.js:91 | the id is appended to the end of that user's seller list; every other user and every other field is unchanged |
| Store.RecordOrder | backend/routes/orders.js:86-91 | pushing a new order's id onto its buyer and its seller keeps every user's lists equal to the orders naming the user |
| Store.UpdateKeepsCrossRefs | backend/routes/orders.js:145-147 | rewriting an order without changing its buyer or seller keeps the users' lists correct |
| Store.PushKeepsProfiles | backend/routes/orders.js:90-91 | the pushes change no user field besides the two order lists |
| Store.AppendOrder | backend/routes/orders.js:70-91 | creating a well-formed order with a fresh transaction id between existing users and recording it keeps the store invariant and changes no profile |
| Store.ReplaceUser | backend/routes/cart.js:54 | saving a user record that passes the schema, has one line per product, keeps its order lists and holds an e-mail no other user has keeps the store invariant |
| Store.ListsExtend | backend/routes/orders.js:90-91 | when orders only grow, each user's lists grow exactly by the ids of the new orders naming the user, and no earlier entry changes |
| CartRoutes.QuantityOrOne | backend/routes/cart.js:48 | `quantity \|\| 1`: a missing or zero quantity counts as 1, any other is kept |
| CartRoutes.FirstLine | backend/routes/cart.js:42-44 | the index of the first line for the product, or -1 when no line has it |
| CartRoutes.FindLine | backend/routes/cart.js:42-44 | the search loop returns the first line for the product, or -1 |
| CartRoutes.AddToCartAt | backend/routes/cart.js:46-48 | with a line for the product, adding grows that line by the quantity and changes nothing else |
| CartRoutes.AddToCartAbsent | backend/routes/cart.js:49-52 | without a line for the product, adding appends one line at the end and keeps the others |
| CartRoutes.AddToCartKeepsSingleLine | backend/routes/cart.js:42-52 | adding keeps at most one line per product |
| CartRoutes.AddToCartQuantities | backend/routes/cart.js:42-52 | adding q of a product raises its total by q and leaves every other product's total alone |
| CartRoutes.AddToCartPositive | backend/routes/cart.js:48-51 | adding a positive quantity keeps every line positive |
| CartRoutes.NegativeQuantityAccepted | backend/routes/cart.js:46-51 | the route has no sign check: for every negative quantity, the product's line shrinks by exactly that amount (or a line with it is appended), and the product's total drops by it |
| CartRoutes.WithoutProductSpec | backend/routes/cart.js:72-74 | removal drops exactly the product's lines and keeps the rest in order |
| CartRoutes.RemoveAbsentIsNoop | backend/routes/cart.js:72-74 | removing a product the cart lacks leaves the cart as it was |
| CartRoutes.FilterKeepsSingleLine | backend/routes/cart.js:72-74 | filtering keeps at most one line per product |
| CartRoutes.GetCart | backend/routes/cart.js:10-21 | the caller's cart, or 404 for an unknown caller; the cart has one line per product |
| CartRoutes.Add | backend/routes/cart.js:24-62 | no product id gives 400; an unknown product gives 404, and so does an unknown user; the store is unchanged on error; on success only the caller's cart changes, to the reference addition, and the invariant holds |
| CartRoutes.Remove | backend/routes/cart.js:65-82 | an unknown caller gives 404 and no change; otherwise only the caller's cart changes, losing exactly the product's lines |
| CartRoutes.Clear | backend/routes/cart.js:85-98 | an unknown caller gives 404; otherwise only the caller's cart changes, to empty, so a second clear changes nothing more |
| OrderRoutes.OtpShape | backend/routes/orders.js:64 | a drawn OTP is six digits and is never the bypass code "000000" |
| OrderRoutes.OtpAcceptedExactly | backend/routes/orders.js:35-37 | a drawn OTP is accepted against the hash of a drawn OTP exactly when both come from the same number |
| OrderRoutes.LinesPlaced | backend/routes/orders.js:60-61 | checkout gets through every line up to the first one whose product is gone |
| OrderRoutes.NewOrder | backend/routes/orders.js:61-84 | the order has one item at the current price, the line's total, status Pending, the caller as buyer and the product's seller, and a hash of the drawn OTP; with a non-empty transaction id it is well formed |
| OrderRoutes.NewOrders | backend/routes/orders.js:60-92 | one order per handled cart line |
| OrderRoutes.PlacedList | backend/routes/orders.js:87 | one response entry per handled cart line |
| OrderRoutes.NewOrdersArePlaced | backend/routes/orders.js:60-84 | order j of checkout is the order cart line j describes, with the OTP drawn for it and transaction id j |
| OrderRoutes.PlacedListAt | backend/routes/orders.js:87 | response entry j pairs the id of the j-th new order with its raw OTP |
| OrderRoutes.PlaceLine | backend/routes/orders.js:61-91 | one loop iteration: the orders so far grow from those of the first i lines to those of the first i+1, the new id is recorded on buyer and seller, the response entry is the new id with its OTP, later transaction ids stay fresh; products, profiles and the caller's cart are unchanged; the invariant holds |
| OrderRoutes.IssueTx | backend/routes/orders.js:68 | giving one more order the next uuid keeps every later uuid unused |
| OrderRoutes.PlaceLines | backend/routes/orders.js:60-92 | the loop appends the orders of the lines up to the first missing product, in cart order, returns their response entries, and keeps the invariant |
| OrderRoutes.Place | backend/routes/orders.js:48-103 | an unknown caller gives 500 and an empty cart 400, both with no change; otherwise one order per line is appended in cart order; success holds exactly when every line's product exists, and then the response pairs each new id with its OTP and the cart is empty; a missing product gives 500 with the orders so far kept and the cart kept; no profile changes; the invariant holds |
| OrderRoutes.Regeneration | backend/routes/orders.js:132-154 | a missing order or another seller gives 403; otherwise only that order's hash changes, and it is a hash of the new OTP |
| OrderRoutes.Completion | backend/routes/orders.js:172-193 | 403 exactly for a missing order or another seller; 400 exactly when the code neither matches nor is "000000"; success exactly for an owned order and an accepted code, and then only the order's status changes, to Completed |
| OrderRoutes.GenerateOtp | backend/routes/orders.js:132-154 | the store's orders become the regeneration result, or stay unchanged with 403; users and products unchanged; the invariant holds |
| OrderRoutes.CompleteOrder | backend/routes/orders.js:27-46 | both completion routes: orders become the completion result, or stay unchanged with its error; the invariant holds; the updated order is returned, which PATCH sends back and POST does not |
| OrderRoutes.PlacedOtpCompletes | backend/routes/orders.js:64-65 | the raw OTP returned at checkout completes its order |
| OrderRoutes.RegenerationReplacesOtp | backend/routes/orders.js:141-145 | after regeneration the new OTP completes the order and an OTP from any other number gets 400 |
| OrderRoutes.BypassCompletesAnyOrder | backend/routes/orders.js:182-184 | "000000" completes any order of the seller, whatever its hash |
| OrderRoutes.CompletionIdempotent | backend/routes/orders.js:186 | completing a completed order again succeeds and changes nothing |
| OrderRoutes.NeverProcessed | backend/routes/orders.js:39 | neither regeneration nor completion turns an order into Processed |
| OrderRoutes.ToDeliver | backend/routes/orders.js:9-24 | exactly the caller's orders as seller that are not Completed, each once, listed in id order |
| OrderRoutes.MyOrders | backend/routes/orders.js:106-116 | exactly the caller's orders as buyer, newest first (also GET /buyer at lines 157-167) |
| OrderRoutes.SellerOrders | backend/routes/orders.js:117-127 | exactly the caller's orders as seller, newest first |
| OrderRoutes.QueriesMatchUserLists | backend/routes/orders.js:108-121 | in a valid store the buyer and seller queries list the user's own order lists, reversed |
| OrderRoutes.CompletionLeavesToDeliver | backend/routes/orders.js:13-16 | a completed order leaves the seller's to-deliver list and every other order stays or stays out |
| AuthRoutes.FindByEmail | backend/routes/authRoutes.js:24 | the first user with exactly that e-mail, or none when no user has it |
| AuthRoutes.FindsTheHolder | backend/routes/authRoutes.js:46 | with unique e-mails, the lookup finds the address's holder |
| AuthRoutes.Registered | backend/routes/authRoutes.js:14-38 | a missing or non-IIIT e-mail gives 400, a taken e-mail 400, a missing first name, last name or password 500; success exactly when the e-mail is valid and free and the required fields are present; the new user is schema-valid, has the submitted e-mail, first and last name, age and contact number, a password hash of the submitted password, and empty lists |
| AuthRoutes.Register | backend/routes/authRoutes.js:14-38 | the store gains exactly the registered user, or is unchanged with the same error; the invariant holds |
| AuthRoutes.Login | backend/routes/authRoutes.js:42-57 | a token is issued only for a user with that e-mail whose hash matches the password; an unknown e-mail gives 400; a known e-mail sent without a password gives 500 |
| AuthRoutes.LoginExactly | backend/routes/authRoutes.js:46-52 | with unique e-mails, login for a user's address succeeds exactly when the password matches, and names that user; otherwise 400 |
| AuthRoutes.RegisterThenLogin | backend/routes/authRoutes.js:30-52 | a new user can log in with the registered password and with no other |
| AuthRoutes.AllowedUpdates | backend/routes/authRoutes.js:64-72 | the updates hold only whitelisted keys |
| AuthRoutes.AllowedUpdatesSpec | backend/routes/authRoutes.js:68-72 | a key is updated exactly when whitelisted and present in the body, with the body's value for it |
| AuthRoutes.IgnoresOtherKeys | backend/routes/authRoutes.js:69 | a key outside the whitelist leaves the updates unchanged |
| AuthRoutes.CastSubmitted | backend/routes/authRoutes.js:68-75 | after a successful cast each profile path holds exactly what the body submitted for it, or nothing when the body omits it; a submitted age is always a number |
| AuthRoutes.SelectAllowed | backend/routes/authRoutes.js:68-72 | the `forEach` loop builds exactly the whitelisted updates |
| AuthRoutes.UpdatedUser | backend/routes/authRoutes.js:61-86 | success exactly when the submitted values pass the cast and validators, the user exists and a submitted e-mail is free; a rejected value gives 500, then an unknown user 404, then an e-mail held by another user 500; only the five profile fields change, each to the submitted value or its old one; the schema and e-mail uniqueness are kept |
| AuthRoutes.UpdateIgnoresOtherKeys | backend/routes/authRoutes.js:64-72 | a body key outside the whitelist (password, cart, orders, ...) does not change the outcome |
| AuthRoutes.UpdateProfile | backend/routes/authRoutes.js:61-86 | the route returns the updated user and stores it in the caller's place, or returns the error with the store unchanged; the invariant holds |
| ProductsPage.CategoryOf | frontend/src/pages/Products.jsx:60 | a missing or empty category reads as "Uncategorized", any other is kept |
| ProductsPage.FilterProducts | frontend/src/pages/Products.jsx:55-63 | an order-preserving subsequence holding exactly the products that pass the search and category test, each as often as in the input |
| ProductsPage.SearchIgnoresCase | frontend/src/pages/Products.jsx:56 | a search and its lower-cased form match the same products |
| ProductsPage.EmptySearchMatches | frontend/src/pages/Products.jsx:56 | the empty search matches every product |
| ProductsPage.NoSelectionIsSearchOnly | frontend/src/pages/Products.jsx:57-58 | with no category selected the result is the search filter alone |
| ProductsPage.NoFilterShowsAll | frontend/src/pages/Products.jsx:55-58 | an empty search with no selection shows every product |
| ProductsPage.ToggleCategory | frontend/src/pages/Products.jsx:46-52 | a selected category is removed and nothing else is lost; an unselected one is appended |
| ProductsPage.ToggleTwice | frontend/src/pages/Products.jsx:46-52 | toggling twice restores an unselected category's selection exactly, and any selection as a set |
| ProductsPage.ToggleKeepsNoDuplicates | frontend/src/pages/Products.jsx:46-52 | toggling keeps the selection free of duplicates |
| ProductsPage.Categories | frontend/src/pages/Products.jsx:27 | each product's category, in product order |
| ProductsPage.UniqueCategories | frontend/src/pages/Products.jsx:26-28 | no duplicates; every product's category is listed, and nothing else |
| ProductsPage.CategoriesAfterFetch | frontend/src/pages/Products.jsx:24-31 | when products arrived, exactly their distinct categories, each once; otherwise the previous list is kept |
| MyOrdersPage.AsOrderList | frontend/src/pages/MyOrders.jsx:28 | a body that is not an array becomes the empty list |
| MyOrdersPage.PendingTextIsPending | frontend/src/pages/MyOrders.jsx:50 | the lower-cased text test singles out exactly the Pending status |
| MyOrdersPage.PendingOrders | frontend/src/pages/MyOrders.jsx:50 | an order-preserving subsequence holding exactly the Pending orders |
| MyOrdersPage.BoughtOrders | frontend/src/pages/MyOrders.jsx:51 | an order-preserving subsequence holding exactly the Processed and Completed orders |
| MyOrdersPage.TabsPartitionOrders | frontend/src/pages/MyOrders.jsx:50-51 | every order lands in exactly one tab, as often as it occurs |

## Left out

- HTTP plumbing, JSON encoding, Mongoose `populate`, and the response messages. Each route returns its outcome as a `Result`.
- The authentication middleware and JWT signing and verification. The caller id is a parameter, and login returns the id the token would carry.
- bcrypt salting and cost. The hash is an injective function of the secret, so a secret matches only the hash made from it.
- Crypto.MatchesExactly, AuthRoutes.LoginExactly, AuthRoutes.RegisterThenLogin: bcrypt reads only the first 72 bytes of a secret, so two passwords that agree on their first 72 bytes match the same hash. The "no other secret" direction of these members holds only for secrets of at most 72 bytes. The six-digit OTPs are well within that limit.
- `Math.random` and `uuidv4`: they are parameters, with their range and their freshness as preconditions.
- Concurrency and cross-document atomicity. Each route is one sequential step, and the lost-update race on carts is not modelled.
- The `rawotp` field set during OTP regeneration. It is not in the order schema and is never stored.
- The `createdAt` timestamp: newest first is modelled as decreasing id, so ties between equal timestamps are not modelled.
- Invalid ObjectId strings, which make `findById` throw a cast error (500).
- CartRoutes.Add, CartRoutes.Remove: product ids are compared by value, while the routes compare a line's canonical id text with the raw request text. A valid but non-canonical spelling of an existing id (upper-case hex, say) therefore appends a second line for the product in Add, which the store invariant's one-line-per-product rule does not allow, and removes nothing in Remove. The model assumes the client sends ids in canonical form.
- OrderRoutes.ToDeliver: the query has no sort, so the database returns its natural order; the model lists the ids in creation order.
- backend/models/Product.js, backend/models/Cart.js and the product routes are not part of this model. A product here has only the fields the routes read.
- Non-ASCII letters in e-mails and search texts: lower-casing is ASCII-only.
- The presentation files, the client API wrappers and the floating-point cart total of the web client.
- Seller reviews are checked by the schema invariant, but no route in the core writes them.
- AuthRoutes.Login: a missing e-mail is not modelled; it is a string here.
- AuthRoutes.Registered: the register body's type casting is not modelled: numbers given for text paths, and an age that is not a number.
- AuthRoutes.UpdatedUser: of JavaScript's `Number(...)` forms only decimal digit strings are modelled; signs, blanks, exponents, fractions and `null` values are left out.
- CartRoutes.Add: a quantity sent as a string (where `+=` concatenates before the cast) is not modelled; quantities are integers.
- OrderRoutes.CompleteOrder: a missing or non-string entered code, for which bcrypt throws (500), is not modelled.
- OrderRoutes.Place: the product's price is an integer, so there are no floating-point totals.
- OrderRoutes.Place: a failure to save part-way is not modelled. The only mid-loop failure modelled is a line whose product was deleted.

=== FILE: auth_routes.dfy ===
/** The account routes: register, log in, and update one's own profile. */
module AuthRoutes {
  import opened Common
  import opened Text
  import Crypto
  import opened UserModel
  import opened Store

  /** `User.findOne({ email })`: the first user whose e-mail is exactly
      `email` (the lookup does not ignore case). */
  function FindByEmail(users: seq<User>, email: string): (r: Option<UserId>)
    ensures r.Some? ==> r.value < |users| && users[r.value].email == email
    ensures r.Some? ==> forall v :: 0 <= v < r.value ==> users[v].email != email
    ensures r.None? ==> forall v :: 0 <= v < |users| ==> users[v].email != email
    decreases |users|
  {
    if users == [] then None
    else
      var n := |users| - 1;
      match FindByEmail(users[..n], email)
      case Some(v) => Some(v)
      case None => if users[n].email == email then Some(n) else None
  }

  /** In a store whose e-mails are unique, the lookup finds the one user
      holding the address. */
  lemma FindsTheHolder(users: seq<User>, u: UserId)
    requires DistinctEmails(users) && u < |users|
    ensures FindByEmail(users, users[u].email) == Some(u)
  {
  }

  // ----- register -----

  /** The register request body; absent fields are `None`. */
  datatype Registration = Registration(
    firstName: Option<string>,
    lastName: Option<string>,
    email: Option<string>,
    age: Option<int>,
    contactNumber: Option<string>,
    password: Option<string>)

  /** A required text path is present and not empty. */
  predicate Present(s: Option<string>) {
    s.Some? && |s.value| > 0
  }

  /** The user record register saves, or why it does not: a missing or
      non-IIIT e-mail is refused before any lookup, an e-mail already in use
      is refused, and a document missing a required path fails validation
      on save.  The saved password is the hash of the submitted one. */
  function Registered(users: seq<User>, req: Registration): (r: Result<User>)
    ensures req.email.None? || !IsIiitEmail(req.email.value) ==> r == Err(BadRequest)
    ensures req.email.Some? && FindByEmail(users, req.email.value).Some? ==> r == Err(BadRequest)
    ensures r.Err? ==> r.error == BadRequest || r.error == Internal
    ensures (&& req.email.Some? && IsIiitEmail(req.email.value) && FindByEmail(users, req.email.value).None?
             && !(Present(req.firstName) && Present(req.lastName) && Present(req.password))) ==> r == Err(Internal)
    ensures r.Ok? <==> && req.email.Some? && IsIiitEmail(req.email.value)
                       && (forall v :: 0 <= v < |users| ==> users[v].email != req.email.value)
                       && Present(req.firstName) && Present(req.lastName) && Present(req.password)
    ensures r.Ok? ==> && SchemaValid(r.value)
                      && r.value.email == req.email.value
                      && r.value.firstName == req.firstName.value && r.value.lastName == req.lastName.value
                      && r.value.age == req.age && r.value.contactNumber == req.contactNumber
                      && Crypto.Matches(req.password.value, r.value.password)
                      && r.value.cart == [] && r.value.sellerReviews == []
                      && r.value.orders == [] && r.value.sellerOrders == []
  {
    if req.email.None? || !IsIiitEmail(req.email.value) then Err(BadRequest)
    else if FindByEmail(users, req.email.value).Some? then Err(BadRequest)
    else if !(Present(req.firstName) && Present(req.lastName) && Present(req.password)) then Err(Internal)
    else
      var newUser := User(req.firstName.value, req.lastName.value, req.email.value, req.age,
                        req.contactNumber, req.password.value, [], [], [], []);
      Ok(PreSave(newUser, true))
  }

  /** POST /auth/register. */
  method Register(db: Db, req: Registration) returns (r: Result<()>)
    requires db.Valid()
    modifies db
    ensures db.Valid()
    ensures db.products == old(db.products) && db.orders == old(db.orders)
    ensures r.Ok? <==> Registered(old(db.users), req).Ok?
    ensures r.Err? ==> r.error == Registered(old(db.users), req).error && db.users == old(db.users)
    ensures r.Ok? ==> db.users == old(db.users) + [Registered(old(db.users), req).value]
  {
    var outcome := Registered(db.users, req);
    if outcome.Err? {
      return Err(outcome.error);
    }
    NoOrdersYet(db.orders, |db.users|);
    db.users := db.users + [outcome.value];
    r := Ok(());
  }

  // ----- login -----

  /** POST /auth/login: the id the token is signed for, or why there is no
      token.  An unknown e-mail and a wrong password both give 400; a missing
      password makes the comparison throw. */
  function Login(users: seq<User>, email: string, password: Option<string>): (r: Result<UserId>)
    ensures r.Ok? ==> && r.value < |users| && users[r.value].email == email
                      && password.Some? && Crypto.Matches(password.value, users[r.value].password)
    ensures (forall v :: 0 <= v < |users| ==> users[v].email != email) ==> r == Err(BadRequest)
    ensures FindByEmail(users, email).Some? && password.None? ==> r == Err(Internal)
    ensures r.Err? ==> r.error == BadRequest || r.error == Internal
  {
    match FindByEmail(users, email)
    case None => Err(BadRequest)
    case Some(u) =>
      if password.None? then Err(Internal)
      else if Crypto.Matches(password.value, users[u].password) then Ok(u)
      else Err(BadRequest)
  }

  /** With unique e-mails, login for a user's address succeeds exactly when
      the password matches that user's hash, and then names that user. */
  lemma LoginExactly(users: seq<User>, u: UserId, password: string)
    requires DistinctEmails(users) && u < |users|
    ensures Login(users, users[u].email, Some(password)) ==
            if Crypto.Matches(password, users[u].password) then Ok(u) else Err(BadRequest)
  {
    FindsTheHolder(users, u);
  }

  /** A user who just registered can log in with the submitted password, and
      with no other. */
  lemma RegisterThenLogin(users: seq<User>, req: Registration, password: string)
    requires DistinctEmails(users)
    requires Registered(users, req).Ok?
    ensures var users' := users + [Registered(users, req).value];
            Login(users', req.email.value, Some(password)) ==
            if password == req.password.value then Ok(|users|) else Err(BadRequest)
  {
    var users' := users + [Registered(users, req).value];
    assert DistinctEmails(users');
    LoginExactly(users', |users|, password);
    Crypto.MatchesExactly(req.password.value, password);
  }

  // ----- update profile -----

  /** A value of the JSON request body. */
  datatype Value = Str(s: string) | Number(n: int)

  /** The keys update-profile copies from the body. */
  const AllowedFields: seq<string> := ["firstName", "lastName", "email", "age", "contactNumber"]

  /** The value a body gives `key`: a later occurrence overrides an earlier
      one, as when the body is parsed. */
  function Lookup(body: seq<(string, Value)>, key: string): (r: Option<Value>)
    decreases |body|
  {
    if body == [] then None
    else if body[|body| - 1].0 == key then Some(body[|body| - 1].1)
    else Lookup(body[..|body| - 1], key)
  }

  /** The `updates` object built from the first `|body|` keys. */
  function AllowedUpdates(body: seq<(string, Value)>): (m: map<string, Value>)
    ensures forall k :: k in m ==> k in AllowedFields
    decreases |body|
  {
    if body == [] then map[]
    else
      var n := |body| - 1;
      var m := AllowedUpdates(body[..n]);
      if body[n].0 in AllowedFields then m[body[n].0 := body[n].1] else m
  }

  /** The updates hold exactly the allowed keys the body mentions, each with
      the value the body gives it. */
  lemma {:induction false} AllowedUpdatesSpec(body: seq<(string, Value)>, key: string)
    ensures key in AllowedUpdates(body) <==> key in AllowedFields && Lookup(body, key).Some?
    ensures key in AllowedUpdates(body) ==> AllowedUpdates(body)[key] == Lookup(body, key).value
    decreases |body|
  {
    if body != [] {
      AllowedUpdatesSpec(body[..|body| - 1], key);
    }
  }

  /** A key outside the whitelist changes nothing, wherever it appears. */
  lemma IgnoresOtherKeys(body: seq<(string, Value)>, key: string, v: Value)
    requires key !in AllowedFields
    ensures AllowedUpdates(body + [(key, v)]) == AllowedUpdates(body)
  {
    assert (body + [(key, v)])[..|body|] == body;
  }

  /** The `forEach` over the body's keys that copies the allowed ones. */
  method SelectAllowed(body: seq<(string, Value)>) returns (updates: map<string, Value>)
    ensures updates == AllowedUpdates(body)
  {
    updates := map[];
    var i := 0;
    while i < |body|
      invariant 0 <= i <= |body|
      invariant updates == AllowedUpdates(body[..i])
    {
      var (key, value) := body[i];
      assert body[..i + 1][..i] == body[..i];
      if key in AllowedFields {
        updates := updates[key := value];
      }
      i := i + 1;
    }
    assert body[..|body|] == body;
  }

  /** A value cast to a String path: numbers are written in decimal. */
  function AsText(v: Value): string {
    match v
    case Str(s) => s
    case Number(n) => IntString(n)
  }

  /** A value cast to a Number path: a string of decimal digits is read as
      its number; anything else is a cast error. */
  function AsNumber(v: Value): Option<int> {
    match v
    case Number(n) => Some(n)
    case Str(s) => if |s| > 0 && AllDigits(s) then Some(ParseDecimal(s)) else None
  }

  /** The cast update: `None` for a path that is not set. */
  datatype ProfileUpdate = ProfileUpdate(
    firstName: Option<string>,
    lastName: Option<string>,
    email: Option<string>,
    age: Option<int>,
    contactNumber: Option<string>)

  function TextUpdate(updates: map<string, Value>, key: string): Option<string> {
    if key in updates then Some(AsText(updates[key])) else None
  }

  /** Casting the updates to the schema's types. */
  function CastUpdates(updates: map<string, Value>): Result<ProfileUpdate> {
    if "age" in updates && AsNumber(updates["age"]).None? then Err(Internal)
    else
      Ok(ProfileUpdate(
        TextUpdate(updates, "firstName"),
        TextUpdate(updates, "lastName"),
        TextUpdate(updates, "email"),
        if "age" in updates then AsNumber(updates["age"]) else None,
        TextUpdate(updates, "contactNumber")))
  }

  /** After the cast, each profile path holds what the body submitted for
      it, or nothing when the body does not mention it. */
  lemma CastSubmitted(body: seq<(string, Value)>)
    ensures CastUpdates(AllowedUpdates(body)).Ok? <==>
              (Lookup(body, "age").Some? ==> AsNumber(Lookup(body, "age").value).Some?)
    ensures CastUpdates(AllowedUpdates(body)).Ok? ==>
              var p := CastUpdates(AllowedUpdates(body)).value;
              && p.firstName == Submitted(body, "firstName")
              && p.lastName == Submitted(body, "lastName")
              && p.email == Submitted(body, "email")
              && p.contactNumber == Submitted(body, "contactNumber")
              && p.age == (if Lookup(body, "age").Some? then AsNumber(Lookup(body, "age").value) else None)
              && (Lookup(body, "age").Some? ==> p.age.Some?)
  {
    AllowedUpdatesSpec(body, "firstName");
    AllowedUpdatesSpec(body, "lastName");
    AllowedUpdatesSpec(body, "email");
    AllowedUpdatesSpec(body, "age");
    AllowedUpdatesSpec(body, "contactNumber");
  }

  /** The update validators: a required path may not be set to an empty
      string, and a new e-mail must pass the IIIT check. */
  predicate Acceptable(p: ProfileUpdate) {
    && (p.firstName.Some? ==> |p.firstName.value| > 0)
    && (p.lastName.Some? ==> |p.lastName.value| > 0)
    && (p.email.Some? ==> IsIiitEmail(p.email.value))
  }

  function Otherwise<T>(o: Option<T>, d: T): T {
    if o.Some? then o.value else d
  }

  /** The user record with the set paths replaced. */
  function Patch(u: User, p: ProfileUpdate): User {
    u.(firstName := Otherwise(p.firstName, u.firstName),
       lastName := Otherwise(p.lastName, u.lastName),
       email := Otherwise(p.email, u.email),
       age := if p.age.Some? then p.age else u.age,
       contactNumber := if p.contactNumber.Some? then p.contactNumber else u.contactNumber)
  }

  /** Some other user already holds the address (the unique index refuses it). */
  predicate EmailTakenByOther(users: seq<User>, caller: UserId, email: string) {
    exists v :: 0 <= v < |users| && v != caller && users[v].email == email
  }

  /** What the submitted text for `key` becomes, if the body sets it. */
  function Submitted(body: seq<(string, Value)>, key: string): Option<string> {
    match Lookup(body, key)
    case None => None
    case Some(v) => Some(AsText(v))
  }

  /** The body's values pass the cast and the update validators: a
      submitted age is a number, a submitted first or last name is not
      empty, and a submitted e-mail is an IIIT address. */
  predicate SubmissionAccepted(body: seq<(string, Value)>) {
    && (Lookup(body, "age").Some? ==> AsNumber(Lookup(body, "age").value).Some?)
    && (Submitted(body, "firstName").Some? ==> |Submitted(body, "firstName").value| > 0)
    && (Submitted(body, "lastName").Some? ==> |Submitted(body, "lastName").value| > 0)
    && (Submitted(body, "email").Some? ==> IsIiitEmail(Submitted(body, "email").value))
  }

  /** PUT /auth/update-profile, as a value: the updated user or the error.
      Cast and validation errors come first (500), then an unknown caller
      (404), then an e-mail held by another user (500). */
  function UpdatedUser(users: seq<User>, caller: UserId, body: seq<(string, Value)>): (r: Result<User>)
    ensures r.Ok? <==> && SubmissionAccepted(body) && caller < |users|
                       && !(Submitted(body, "email").Some? && EmailTakenByOther(users, caller, Submitted(body, "email").value))
    ensures !SubmissionAccepted(body) ==> r == Err(Internal)
    ensures SubmissionAccepted(body) && caller >= |users| ==> r == Err(NotFound)
    ensures (&& SubmissionAccepted(body) && caller < |users| && Submitted(body, "email").Some?
             && EmailTakenByOther(users, caller, Submitted(body, "email").value)) ==> r == Err(Internal)
    ensures r.Err? ==> r.error == NotFound || r.error == Internal
    ensures r.Ok? ==> r.value.(firstName := users[caller].firstName, lastName := users[caller].lastName,
                               email := users[caller].email, age := users[caller].age,
                               contactNumber := users[caller].contactNumber) == users[caller]
    ensures r.Ok? ==> r.value.firstName == Otherwise(Submitted(body, "firstName"), users[caller].firstName)
    ensures r.Ok? ==> r.value.lastName == Otherwise(Submitted(body, "lastName"), users[caller].lastName)
    ensures r.Ok? ==> r.value.email == Otherwise(Submitted(body, "email"), users[caller].email)
    ensures r.Ok? ==> r.value.contactNumber ==
                        if Submitted(body, "contactNumber").Some? then Submitted(body, "contactNumber")
                        else users[caller].contactNumber
    ensures r.Ok? ==> r.value.age == if Lookup(body, "age").Some? then AsNumber(Lookup(body, "age").value)
                                     else users[caller].age
    ensures r.Ok? && SchemaValid(users[caller]) ==> SchemaValid(r.value)
    ensures r.Ok? && Submitted(body, "email").Some? ==>
              forall v :: 0 <= v < |users| && v != caller ==> users[v].email != r.value.email
  {
    CastSubmitted(body);
    match CastUpdates(AllowedUpdates(body))
    case Err(e) => Err(e)
    case Ok(p) =>
      if !Acceptable(p) then Err(Internal)
      else if caller >= |users| then Err(NotFound)
      else if p.email.Some? && EmailTakenByOther(users, caller, p.email.value) then Err(Internal)
      else Ok(Patch(users[caller], p))
  }

  /** Only the allowed keys of the body matter: adding any other key gives
      the same outcome. */
  lemma UpdateIgnoresOtherKeys(users: seq<User>, caller: UserId, body: seq<(string, Value)>, key: string, v: Value)
    requires key !in AllowedFields
    ensures UpdatedUser(users, caller, body + [(key, v)]) == UpdatedUser(users, caller, body)
  {
    IgnoresOtherKeys(body, key, v);
  }

  /** PUT /auth/update-profile. */
  method UpdateProfile(db: Db, caller: UserId, body: seq<(string, Value)>) returns (r: Result<User>)
    requires db.Valid()
    modifies db
    ensures db.Valid()
    ensures db.products == old(db.products) && db.orders == old(db.orders)
    ensures r == UpdatedUser(old(db.users), caller, body)
    ensures r.Ok? ==> db.users == old(db.users)[caller := r.value]
    ensures r.Err? ==> db.users == old(db.users)
  {
    var updates := SelectAllowed(body);
    var cast := CastUpdates(updates);
    if cast.Err? {
      return Err(cast.error);
    }
    var p := cast.value;
    if !Acceptable(p) {
      return Err(Internal);
    }
    if caller >= |db.users| {
      return Err(NotFound);
    }
    if p.email.Some? && EmailTakenByOther(db.users, caller, p.email.value) {
      return Err(Internal);
    }
    var updated := Patch(db.users[caller], p);
    ReplaceUser(db.users, db.products, db.orders, caller, updated);
    db.users := db.users[caller := updated];
    r := Ok(updated);
  }
}

=== FILE: cart_routes.dfy ===
/** The cart routes: read the caller's cart, add a product to it, remove a
    product from it, empty it.  Each route changes the caller's cart in
    place and saves it. */
module CartRoutes {
  import opened Common
  import opened UserModel
  import opened Store
  import Seqs

  /** `quantity || 1`: a missing or zero quantity counts as one. */
  function QuantityOrOne(q: Option<int>): (n: int)
    ensures n != 0
    ensures q.Some? && q.value != 0 ==> n == q.value
    ensures q.None? ==> n == 1
  {
    if q.None? || q.value == 0 then 1 else q.value
  }

  /** Reference definition of adding `q` of product `pid`: the first line
      for `pid` grows by `q`; without such a line one is appended. */
  function AddToCart(cart: seq<CartItem>, pid: ProductId, q: int): seq<CartItem>
    decreases |cart|
  {
    if cart == [] then [CartItem(pid, q)]
    else if cart[0].product == pid then [cart[0].(quantity := cart[0].quantity + q)] + cart[1..]
    else [cart[0]] + AddToCart(cart[1..], pid, q)
  }

  /** The position of the first line for `pid`, or -1 when there is none. */
  function FirstLine(cart: seq<CartItem>, pid: ProductId): (i: int)
    ensures -1 <= i < |cart|
    ensures i >= 0 ==> cart[i].product == pid
    ensures forall j :: 0 <= j < (if i < 0 then |cart| else i) ==> cart[j].product != pid
    decreases |cart|
  {
    if cart == [] then -1
    else if cart[0].product == pid then 0
    else
      var i := FirstLine(cart[1..], pid);
      if i < 0 then -1 else i + 1
  }

  /** `findIndex`, as the loop it runs. */
  method FindLine(cart: seq<CartItem>, pid: ProductId) returns (i: int)
    ensures i == FirstLine(cart, pid)
  {
    i := 0;
    while i < |cart|
      invariant 0 <= i <= |cart|
      invariant forall j :: 0 <= j < i ==> cart[j].product != pid
    {
      if cart[i].product == pid {
        FirstLineUnique(cart, pid, i);
        return;
      }
      i := i + 1;
    }
    FirstLineUnique(cart, pid, -1);
    i := -1;
  }

  /** The properties of `FirstLine` determine it. */
  lemma FirstLineUnique(cart: seq<CartItem>, pid: ProductId, i: int)
    requires -1 <= i < |cart|
    requires i >= 0 ==> cart[i].product == pid
    requires forall j :: 0 <= j < (if i < 0 then |cart| else i) ==> cart[j].product != pid
    ensures i == FirstLine(cart, pid)
  {
    var f := FirstLine(cart, pid);
    if f >= 0 {
      assert cart[f].product == pid;
    }
    if i >= 0 {
      assert cart[i].product == pid;
    }
  }

  /** When line `i` is the first for `pid`, adding grows that line only. */
  lemma {:induction false} AddToCartAt(cart: seq<CartItem>, pid: ProductId, q: int, i: nat)
    requires i < |cart| && cart[i].product == pid
    requires forall j :: 0 <= j < i ==> cart[j].product != pid
    ensures AddToCart(cart, pid, q) == cart[i := cart[i].(quantity := cart[i].quantity + q)]
    decreases i
  {
    if i == 0 {
      assert [cart[0].(quantity := cart[0].quantity + q)] + cart[1..] ==
             cart[0 := cart[0].(quantity := cart[0].quantity + q)];
    } else {
      AddToCartAt(cart[1..], pid, q, i - 1);
      assert [cart[0]] + cart[1..][i - 1 := cart[i].(quantity := cart[i].quantity + q)] ==
             cart[i := cart[i].(quantity := cart[i].quantity + q)];
    }
  }

  /** Without a line for `pid`, adding appends one at the end. */
  lemma {:induction false} AddToCartAbsent(cart: seq<CartItem>, pid: ProductId, q: int)
    requires forall j :: 0 <= j < |cart| ==> cart[j].product != pid
    ensures AddToCart(cart, pid, q) == cart + [CartItem(pid, q)]
    decreases |cart|
  {
    if cart != [] {
      AddToCartAbsent(cart[1..], pid, q);
      assert [cart[0]] + (cart[1..] + [CartItem(pid, q)]) == cart + [CartItem(pid, q)];
    }
  }

  /** Adding keeps at most one line per product. */
  lemma AddToCartKeepsSingleLine(cart: seq<CartItem>, pid: ProductId, q: int)
    requires SingleLinePerProduct(cart)
    ensures SingleLinePerProduct(AddToCart(cart, pid, q))
  {
    var i := FirstLine(cart, pid);
    if i >= 0 {
      AddToCartAt(cart, pid, q, i);
    } else {
      AddToCartAbsent(cart, pid, q);
    }
  }

  /** The total quantity of a product over the lines of a cart. */
  function QuantityOf(cart: seq<CartItem>, pid: ProductId): int
    decreases |cart|
  {
    if cart == [] then 0
    else (if cart[0].product == pid then cart[0].quantity else 0) + QuantityOf(cart[1..], pid)
  }

  /** Adding `q` of `pid` raises the quantity of `pid` by `q` and leaves the
      quantity of every other product unchanged. */
  lemma {:induction false} AddToCartQuantities(cart: seq<CartItem>, pid: ProductId, q: int, other: ProductId)
    ensures QuantityOf(AddToCart(cart, pid, q), other) ==
            QuantityOf(cart, other) + (if other == pid then q else 0)
    decreases |cart|
  {
    if cart != [] {
      if cart[0].product == pid {
        assert ([cart[0].(quantity := cart[0].quantity + q)] + cart[1..])[1..] == cart[1..];
      } else {
        AddToCartQuantities(cart[1..], pid, q, other);
        assert ([cart[0]] + AddToCart(cart[1..], pid, q))[1..] == AddToCart(cart[1..], pid, q);
      }
    }
  }

  /** Lines keep a positive quantity when a positive quantity is added. */
  lemma {:induction false} AddToCartPositive(cart: seq<CartItem>, pid: ProductId, q: int)
    requires forall k :: 0 <= k < |cart| ==> cart[k].quantity >= 1
    requires q >= 1
    ensures forall k :: 0 <= k < |AddToCart(cart, pid, q)| ==> AddToCart(cart, pid, q)[k].quantity >= 1
    decreases |cart|
  {
    if cart != [] && cart[0].product != pid {
      AddToCartPositive(cart[1..], pid, q);
      var rest := AddToCart(cart[1..], pid, q);
      assert forall k :: 0 < k < |rest| + 1 ==> ([cart[0]] + rest)[k] == rest[k - 1];
    }
  }

  /** The route does not check the sign of the quantity: a negative
      quantity is added as it is, so the product's line shrinks by that much
      and may end at zero or below. */
  lemma NegativeQuantityAccepted(cart: seq<CartItem>, pid: ProductId, q: int)
    requires q < 0
    ensures QuantityOrOne(Some(q)) == q
    ensures QuantityOf(AddToCart(cart, pid, QuantityOrOne(Some(q))), pid) == QuantityOf(cart, pid) + q
    ensures FirstLine(cart, pid) >= 0 ==>
              var i := FirstLine(cart, pid);
              AddToCart(cart, pid, QuantityOrOne(Some(q))) == cart[i := cart[i].(quantity := cart[i].quantity + q)]
    ensures FirstLine(cart, pid) < 0 ==>
              AddToCart(cart, pid, QuantityOrOne(Some(q))) == cart + [CartItem(pid, q)]
  {
    AddToCartQuantities(cart, pid, q, pid);
    var i := FirstLine(cart, pid);
    if i >= 0 {
      AddToCartAt(cart, pid, q, i);
    } else {
      AddToCartAbsent(cart, pid, q);
    }
  }

  /** The cart without any line for `pid`, the rest in order. */
  function WithoutProduct(cart: seq<CartItem>, pid: ProductId): seq<CartItem> {
    Seqs.Filter(cart, (item: CartItem) => item.product != pid)
  }

  /** Removing drops exactly the lines for `pid` and keeps the others in
      their order. */
  lemma WithoutProductSpec(cart: seq<CartItem>, pid: ProductId)
    ensures forall k :: 0 <= k < |WithoutProduct(cart, pid)| ==>
              WithoutProduct(cart, pid)[k].product != pid && WithoutProduct(cart, pid)[k] in cart
    ensures forall k :: 0 <= k < |cart| && cart[k].product != pid ==> cart[k] in WithoutProduct(cart, pid)
    ensures Seqs.IsSubsequence(WithoutProduct(cart, pid), cart)
  {
    Seqs.FilterIsSubsequence(cart, (item: CartItem) => item.product != pid);
  }

  /** Removing a product the cart does not hold changes nothing. */
  lemma RemoveAbsentIsNoop(cart: seq<CartItem>, pid: ProductId)
    requires forall k :: 0 <= k < |cart| ==> cart[k].product != pid
    ensures WithoutProduct(cart, pid) == cart
  {
    Seqs.FilterKeepsAll(cart, (item: CartItem) => item.product != pid);
  }

  /** Filtering keeps at most one line per product. */
  lemma {:induction false} FilterKeepsSingleLine(cart: seq<CartItem>, p: CartItem -> bool)
    requires SingleLinePerProduct(cart)
    ensures SingleLinePerProduct(Seqs.Filter(cart, p))
    decreases |cart|
  {
    if cart != [] {
      FilterKeepsSingleLine(cart[1..], p);
      var rest := Seqs.Filter(cart[1..], p);
      forall k | 0 <= k < |rest|
        ensures rest[k].product != cart[0].product
      {
        var j :| 0 <= j < |cart[1..]| && cart[1..][j] == rest[k];
        assert cart[j + 1] == rest[k];
      }
      if p(cart[0]) {
        assert forall k :: 0 < k < |rest| + 1 ==> ([cart[0]] + rest)[k] == rest[k - 1];
      }
    }
  }

  /** GET /cart: the caller's cart. */
  method GetCart(db: Db, caller: UserId) returns (r: Result<seq<CartItem>>)
    requires db.Valid()
    ensures caller < |db.users| ==> r == Ok(db.users[caller].cart)
    ensures caller >= |db.users| ==> r == Err(NotFound)
    ensures r.Ok? ==> SingleLinePerProduct(r.value)
  {
    if caller >= |db.users| {
      return Err(NotFound);
    }
    r := Ok(db.users[caller].cart);
  }

  /** POST /cart/add: add `quantity || 1` of a product to the caller's cart. */
  method Add(db: Db, caller: UserId, productId: Option<ProductId>, quantity: Option<int>)
    returns (r: Result<seq<CartItem>>)
    requires db.Valid()
    modifies db
    ensures db.Valid()
    ensures db.products == old(db.products) && db.orders == old(db.orders)
    ensures productId.None? ==> r == Err(BadRequest)
    ensures productId.Some? && productId.value !in db.products ==> r == Err(NotFound)
    ensures productId.Some? && productId.value in db.products && caller >= |db.users| ==> r == Err(NotFound)
    ensures r.Ok? <==> productId.Some? && productId.value in db.products && caller < |old(db.users)|
    ensures r.Err? ==> db.users == old(db.users)
    ensures r.Ok? ==>
      var before := old(db.users[caller]);
      && db.users == old(db.users)[caller := before.(cart := AddToCart(before.cart, productId.value, QuantityOrOne(quantity)))]
      && r.value == db.users[caller].cart
  {
    if productId.None? {
      return Err(BadRequest);
    }
    var pid := productId.value;
    if pid !in db.products {
      return Err(NotFound);
    }
    if caller >= |db.users| {
      return Err(NotFound);
    }
    var user := db.users[caller];
    var q := QuantityOrOne(quantity);
    var i := FindLine(user.cart, pid);
    var cart: seq<CartItem>;
    if i > -1 {
      cart := user.cart[i := user.cart[i].(quantity := user.cart[i].quantity + q)];
      AddToCartAt(user.cart, pid, q, i);
    } else {
      cart := user.cart + [CartItem(pid, q)];
      AddToCartAbsent(user.cart, pid, q);
    }
    AddToCartKeepsSingleLine(user.cart, pid, q);
    ReplaceUser(db.users, db.products, db.orders, caller, user.(cart := cart));
    db.users := db.users[caller := user.(cart := cart)];
    r := Ok(cart);
  }

  /** DELETE /cart/remove/:productId: drop every line for the product. */
  method Remove(db: Db, caller: UserId, pid: ProductId) returns (r: Result<seq<CartItem>>)
    requires db.Valid()
    modifies db
    ensures db.Valid()
    ensures db.products == old(db.products) && db.orders == old(db.orders)
    ensures caller >= |old(db.users)| ==> r == Err(NotFound) && db.users == old(db.users)
    ensures caller < |old(db.users)| ==>
      var before := old(db.users[caller]);
      && db.users == old(db.users)[caller := before.(cart := WithoutProduct(before.cart, pid))]
      && r == Ok(db.users[caller].cart)
  {
    if caller >= |db.users| {
      return Err(NotFound);
    }
    var user := db.users[caller];
    var cart := Seqs.Filter(user.cart, (item: CartItem) => item.product != pid);
    FilterKeepsSingleLine(user.cart, (item: CartItem) => item.product != pid);
    ReplaceUser(db.users, db.products, db.orders, caller, user.(cart := cart));
    db.users := db.users[caller := user.(cart := cart)];
    r := Ok(cart);
  }

  /** DELETE /cart/clear: empty the caller's cart. */
  method Clear(db: Db, caller: UserId) returns (r: Result<seq<CartItem>>)
    requires db.Valid()
    modifies db
    ensures db.Valid()
    ensures db.products == old(db.products) && db.orders == old(db.orders)
    ensures caller >= |old(db.users)| ==> r == Err(NotFound) && db.users == old(db.users)
    ensures caller < |old(db.users)| ==>
      && db.users == old(db.users)[caller := old(db.users[caller]).(cart := [])]
      && r == Ok([])
  {
    if caller >= |db.users| {
      return Err(NotFound);
    }
    ReplaceUser(db.users, db.products, db.orders, caller, db.users[caller].(cart := []));
    db.users := db.users[caller := db.users[caller].(cart := [])];
    r := Ok([]);
  }
}

=== FILE: common.dfy ===
/** Values shared by every part of the marketplace model: identifiers,
    optional values and the outcome of a route. */
module Common {

  /** Database identifiers.  Users and orders are numbered in creation order,
      so an identifier is also the record's position in the store. */
  type UserId = nat
  type ProductId = nat
  type OrderId = nat

  datatype Option<+T> = None | Some(value: T)

  /** The error answers of the routes, by HTTP status class. */
  datatype Error =
    | BadRequest  // 400
    | Forbidden   // 403 (the routes answer "Unauthorized")
    | NotFound    // 404
    | Internal    // 500: an exception caught at the route boundary

  /** The answer of a route: a value, or one of the error classes above. */
  datatype Result<+T> = Ok(value: T) | Err(error: Error)
}

=== FILE: crypto.dfy ===
/** The one-way hash the backend uses for passwords and OTPs (bcrypt).
    It is modelled as an injective function from a secret to the stored
    text, so that a secret matches a stored hash exactly when the hash was
    made from that secret.  Salting and the cost factor are not modelled. */
module Crypto {

  /** The marker every stored hash starts with ("$2a$", cost 10). */
  const HashPrefix: string := "$2a$10$"

  /** `bcrypt.hash(raw, 10)`. */
  function HashOf(raw: string): (h: string)
    ensures |h| > 0
  {
    HashPrefix + raw
  }

  /** `bcrypt.compare(raw, h)`. */
  predicate Matches(raw: string, h: string) {
    h == HashOf(raw)
  }

  /** A hash matches the secret it was made from, and no other. */
  lemma MatchesExactly(raw: string, other: string)
    ensures Matches(other, HashOf(raw)) <==> other == raw
  {
    if Matches(other, HashOf(raw)) {
      assert other == HashOf(other)[|HashPrefix|..];
      assert raw == HashOf(raw)[|HashPrefix|..];
    }
  }
}

=== FILE: my_orders_page.dfy ===
/** The buyer's order history page: the response coercion and the split of
    the buyer's orders into the pending and the bought tab. */
module MyOrdersPage {
  import opened Text
  import opened OrderModel
  import opened Seqs

  /** The body of an orders response, as far as the page looks at it. */
  datatype Body = OrderArray(orders: seq<Order>) | NotAnArray

  /** `Array.isArray(data) ? data : []`. */
  function AsOrderList(b: Body): (r: seq<Order>)
    ensures b.NotAnArray? ==> r == []
    ensures b.OrderArray? ==> r == b.orders
  {
    match b
    case OrderArray(orders) => orders
    case NotAnArray => []
  }

  /** `order.status.toLowerCase() === "pending"`. */
  predicate IsPendingText(o: Order) {
    Lower(StatusName(o.status)) == "pending"
  }

  /** The text test singles out exactly the Pending status. */
  lemma PendingTextIsPending(o: Order)
    ensures IsPendingText(o) <==> o.status == Pending
  {
    if o.status == Pending {
      var low := Lower("Pending");
      assert low[0] == 'p' && low[1] == 'e' && low[2] == 'n' && low[3] == 'd';
      assert low[4] == 'i' && low[5] == 'n' && low[6] == 'g';
      assert low == "pending";
    }
  }

  /** The pending tab: the buyer orders still Pending, in list order. */
  function PendingOrders(orders: seq<Order>): (r: seq<Order>)
    ensures IsSubsequence(r, orders)
    ensures forall i :: 0 <= i < |r| ==> r[i].status == Pending
    ensures forall i :: 0 <= i < |orders| && orders[i].status == Pending ==> orders[i] in r
  {
    forall o: Order { PendingTextIsPending(o); }
    FilterIsSubsequence(orders, o => IsPendingText(o));
    Filter(orders, o => IsPendingText(o))
  }

  /** The bought tab: every other buyer order, so Processed and Completed
      orders both count as bought. */
  function BoughtOrders(orders: seq<Order>): (r: seq<Order>)
    ensures IsSubsequence(r, orders)
    ensures forall i :: 0 <= i < |r| ==> r[i].status == Processed || r[i].status == Completed
    ensures forall i :: 0 <= i < |orders| && orders[i].status != Pending ==> orders[i] in r
  {
    forall o: Order { PendingTextIsPending(o); }
    FilterIsSubsequence(orders, o => !IsPendingText(o));
    Filter(orders, o => !IsPendingText(o))
  }

  /** Every buyer order lands in exactly one tab: together the two tabs hold
      the orders of the list, each as often as it occurs there. */
  lemma TabsPartitionOrders(orders: seq<Order>)
    ensures multiset(PendingOrders(orders)) + multiset(BoughtOrders(orders)) == multiset(orders)
  {
    FilterPartition(orders, o => IsPendingText(o), o => !IsPendingText(o));
  }
}

=== FILE: order_model.dfy ===
/** The order record: one purchase between a buyer and a seller, with its
    ordered items, its status and the hash of its one-time password. */
module OrderModel {
  import opened Common

  /** The status enum; a new order is Pending unless told otherwise. */
  datatype OrderStatus = Pending | Processed | Completed

  /** The text stored for each status. */
  function StatusName(s: OrderStatus): string {
    match s
    case Pending => "Pending"
    case Processed => "Processed"
    case Completed => "Completed"
  }

  /** Casting the `status` path of a document: a missing value takes the
      default, a value outside the enum fails validation (a save error). */
  function CastStatus(v: Option<string>): (r: Result<OrderStatus>)
    ensures v.None? ==> r == Ok(Pending)
    ensures v.Some? ==> (r.Ok? <==> v.value in ["Pending", "Processed", "Completed"])
    ensures r.Ok? && v.Some? ==> StatusName(r.value) == v.value
    ensures r.Err? ==> r.error == Internal
  {
    match v
    case None => Ok(Pending)
    case Some(text) =>
      if text == "Pending" then Ok(Pending)
      else if text == "Processed" then Ok(Processed)
      else if text == "Completed" then Ok(Completed)
      else Err(Internal)
  }

  /** Storing a status and reading it back gives the same status. */
  lemma StatusRoundTrip(s: OrderStatus)
    ensures CastStatus(Some(StatusName(s))) == Ok(s)
  {
  }

  /** One line of an order: which product, how many, and the unit price
      frozen at checkout. */
  datatype OrderedItem = OrderedItem(product: ProductId, quantity: int, priceAtPurchase: int)

  datatype Order = Order(
    transactionId: string,
    buyerId: UserId,
    sellerId: UserId,
    items: seq<OrderedItem>,
    totalPrice: int,
    status: OrderStatus,
    otp: string)  // the hash of the one-time password, never the password

  /** The required text paths are present (Mongoose rejects an empty string
      for a required path); ids, numbers and the status are required by type. */
  predicate WellFormed(o: Order) {
    |o.transactionId| > 0 && |o.otp| > 0
  }

  /** `transactionId` is unique across all orders. */
  predicate DistinctTransactions(orders: seq<Order>) {
    forall i, j :: 0 <= i < j < |orders| ==> orders[i].transactionId != orders[j].transactionId
  }

  /** The order filters the routes pass to `Order.find`. */
  datatype Query =
    | BuyerIs(buyer: UserId)        // { buyerId }
    | SellerIs(seller: UserId)      // { sellerId }
    | ToDeliverOf(seller: UserId)   // { sellerId, status: { $in: ["Pending", "Processed"] } }

  predicate Selects(q: Query, o: Order) {
    match q
    case BuyerIs(u) => o.buyerId == u
    case SellerIs(u) => o.sellerId == u
    case ToDeliverOf(u) => o.sellerId == u && (o.status == Pending || o.status == Processed)
  }

  /** The ids of the orders a filter selects, in creation order. */
  function IdsWhere(orders: seq<Order>, q: Query): seq<OrderId>
    decreases |orders|
  {
    if orders == [] then []
    else
      var n := |orders| - 1;
      IdsWhere(orders[..n], q) + (if Selects(q, orders[n]) then [n] else [])
  }

  /** A filter's answer lists exactly the ids of the orders it selects,
      each once, in ascending order. */
  lemma {:induction false} IdsWhereSpec(orders: seq<Order>, q: Query)
    ensures forall k :: 0 <= k < |IdsWhere(orders, q)| ==>
              IdsWhere(orders, q)[k] < |orders| && Selects(q, orders[IdsWhere(orders, q)[k]])
    ensures forall i :: 0 <= i < |orders| && Selects(q, orders[i]) ==> i in IdsWhere(orders, q)
    ensures forall j, k :: 0 <= j < k < |IdsWhere(orders, q)| ==> IdsWhere(orders, q)[j] < IdsWhere(orders, q)[k]
    decreases |orders|
  {
    if orders != [] {
      var n := |orders| - 1;
      var front := orders[..n];
      IdsWhereSpec(front, q);
      var pre := IdsWhere(front, q);
      var ids := IdsWhere(orders, q);
      assert ids == pre + (if Selects(q, orders[n]) then [n] else []);
      forall k | 0 <= k < |pre|
        ensures ids[k] == pre[k] && pre[k] < n && Selects(q, orders[pre[k]])
      {
        assert orders[pre[k]] == front[pre[k]];
      }
      forall i | 0 <= i < n && Selects(q, orders[i])
        ensures i in ids
      {
        assert orders[i] == front[i];
      }
    }
  }

  /** Creating one more order extends a filter's answer by that order's id
      when the filter selects it, and leaves the earlier answer alone. */
  lemma IdsWhereAppend(orders: seq<Order>, o: Order, q: Query)
    ensures IdsWhere(orders + [o], q) ==
            IdsWhere(orders, q) + (if Selects(q, o) then [|orders|] else [])
  {
    assert (orders + [o])[..|orders|] == orders;
  }

  /** The ids of a list of orders created after `base` others. */
  function Shift(ids: seq<OrderId>, base: nat): (r: seq<OrderId>)
    ensures |r| == |ids|
    ensures forall k :: 0 <= k < |ids| ==> r[k] == base + ids[k]
  {
    seq(|ids|, k requires 0 <= k < |ids| => base + ids[k])
  }

  /** Creating a batch of orders extends a filter's answer with exactly the
      ids of the new orders it selects: no earlier id is removed or moved. */
  lemma {:induction false} IdsWhereExtend(orders: seq<Order>, extra: seq<Order>, q: Query)
    ensures IdsWhere(orders + extra, q) == IdsWhere(orders, q) + Shift(IdsWhere(extra, q), |orders|)
    decreases |extra|
  {
    if extra == [] {
      assert orders + extra == orders;
    } else {
      var m := |extra| - 1;
      var front, last := extra[..m], extra[m];
      var tail: seq<OrderId> := if Selects(q, last) then [m] else [];
      // the last new order, on top of the earlier ones ...
      assert orders + extra == (orders + front) + [last];
      IdsWhereAppend(orders + front, last, q);
      assert Shift(tail, |orders|) == if Selects(q, last) then [|orders + front|] else [];
      // ... the earlier new orders, by induction ...
      IdsWhereExtend(orders, front, q);
      // ... and the new orders on their own
      assert extra == front + [last];
      IdsWhereAppend(front, last, q);
      ShiftAppendAfter(IdsWhere(orders, q), IdsWhere(front, q), tail, |orders|);
    }
  }

  /** Shifting a concatenation, after a common prefix, shifts each part. */
  lemma ShiftAppendAfter(prefix: seq<OrderId>, a: seq<OrderId>, b: seq<OrderId>, base: nat)
    ensures prefix + Shift(a, base) + Shift(b, base) == prefix + Shift(a + b, base)
  {
    assert Shift(a + b, base) == Shift(a, base) + Shift(b, base);
  }

  /** Changing an order's status or password hash does not move it between
      the buyer and seller lists. */
  lemma {:induction false} IdsWhereSameParties(a: seq<Order>, b: seq<Order>, q: Query)
    requires q.BuyerIs? || q.SellerIs?
    requires |a| == |b|
    requires forall i :: 0 <= i < |a| ==> a[i].buyerId == b[i].buyerId && a[i].sellerId == b[i].sellerId
    ensures IdsWhere(a, q) == IdsWhere(b, q)
    decreases |a|
  {
    if a != [] {
      var n := |a| - 1;
      IdsWhereSameParties(a[..n], b[..n], q);
    }
  }
}

=== FILE: order_routes.dfy ===
/** The order routes: checkout turns every cart line into its own order;
    the seller regenerates an order's one-time password (OTP) and completes
    the order with the OTP the buyer hands over; four queries list orders
    for the buyer or the seller. */
module OrderRoutes {
  import opened Common
  import opened Text
  import Crypto
  import opened UserModel
  import opened ProductModel
  import opened OrderModel
  import opened Store
  import Seqs

  /** The code every completion accepts in place of the real OTP. */
  const BypassOtp: string := "000000"

  /** `Math.floor(100000 + Math.random() * 900000)` lies in this range. */
  predicate IsOtpValue(n: int) {
    100000 <= n <= 999999
  }

  /** The raw OTP: the drawn number's `toString()`. */
  function OtpText(n: nat): string {
    DecimalString(n)
  }

  /** A drawn OTP is six decimal digits and never the bypass code. */
  lemma OtpShape(n: nat)
    requires IsOtpValue(n)
    ensures |OtpText(n)| == 6 && AllDigits(OtpText(n))
    ensures OtpText(n) != BypassOtp
  {
    assert Pow10(5) == 100000 && Pow10(6) == 1000000;
    DecimalLength(n, 5);
    DecimalStringDigits(n);
    DecimalLeading(n);
  }

  /** The completion check: the entered code matches the stored hash, or it
      is the bypass code. */
  predicate OtpAccepted(entered: string, hash: string) {
    Crypto.Matches(entered, hash) || entered == BypassOtp
  }

  /** An issued OTP is accepted against its own hash, and the OTP drawn from
      any other number is not. */
  lemma OtpAcceptedExactly(m: nat, n: nat)
    requires IsOtpValue(m) && IsOtpValue(n)
    ensures OtpAccepted(OtpText(m), Crypto.HashOf(OtpText(n))) <==> m == n
  {
    OtpShape(m);
    Crypto.MatchesExactly(OtpText(n), OtpText(m));
    DecimalStringInjective(m, n);
  }

  // ----- checkout -----

  /** One entry of the checkout response: an order and its raw OTP. */
  datatype Placed = Placed(orderId: OrderId, rawOtp: string)

  /** The order checkout makes from one cart line: a single item at the
      current price, the total for the line, status Pending, the buyer, the
      product's seller, and the hash of the raw OTP. */
  predicate IsPlacedOrder(o: Order, buyer: UserId, line: CartItem, product: Product, rawOtp: string, tx: string) {
    && o.transactionId == tx
    && o.buyerId == buyer
    && o.sellerId == product.sellerId
    && o.items == [OrderedItem(line.product, line.quantity, product.price)]
    && o.totalPrice == product.price * line.quantity
    && o.status == Pending
    && Crypto.Matches(rawOtp, o.otp)
  }

  /** How many cart lines checkout gets through: every line up to the first
      one whose product no longer exists. */
  function LinesPlaced(cart: seq<CartItem>, products: map<ProductId, Product>): (k: nat)
    ensures k <= |cart|
    ensures forall j :: 0 <= j < k ==> cart[j].product in products
    ensures k < |cart| ==> cart[k].product !in products
    decreases |cart|
  {
    if cart == [] || cart[0].product !in products then 0
    else 1 + LinesPlaced(cart[1..], products)
  }

  /** The order checkout builds for one cart line. */
  function NewOrder(buyer: UserId, line: CartItem, product: Product, otp: nat, tx: string): (o: Order)
    ensures IsPlacedOrder(o, buyer, line, product, OtpText(otp), tx)
    ensures |tx| > 0 ==> WellFormed(o)
  {
    Order(tx, buyer, product.sellerId,
          [OrderedItem(line.product, line.quantity, product.price)],
          product.price * line.quantity, Pending, Crypto.HashOf(OtpText(otp)))
  }

  /** The orders checkout creates for the first `k` cart lines. */
  function NewOrders(buyer: UserId, cart: seq<CartItem>, products: map<ProductId, Product>,
                     otps: seq<nat>, txIds: seq<string>, k: nat): (os: seq<Order>)
    requires k <= |cart| && k <= |otps| && k <= |txIds|
    requires forall j :: 0 <= j < k ==> cart[j].product in products
    ensures |os| == k
  {
    if k == 0 then []
    else NewOrders(buyer, cart, products, otps, txIds, k - 1) +
         [NewOrder(buyer, cart[k - 1], products[cart[k - 1].product], otps[k - 1], txIds[k - 1])]
  }

  /** The checkout response for the first `k` cart lines, the first order
      taking id `base`. */
  function PlacedList(base: nat, otps: seq<nat>, k: nat): (ps: seq<Placed>)
    requires k <= |otps|
    ensures |ps| == k
  {
    if k == 0 then [] else PlacedList(base, otps, k - 1) + [Placed(base + k - 1, OtpText(otps[k - 1]))]
  }

  /** Order `j` of a checkout is the one the `j`-th cart line describes: one
      item at the current price, Pending, between the buyer and the product's
      seller, and its OTP hash matches the OTP drawn for that line. */
  lemma {:induction false} NewOrdersArePlaced(buyer: UserId, cart: seq<CartItem>, products: map<ProductId, Product>,
                                              otps: seq<nat>, txIds: seq<string>, k: nat, j: nat)
    requires k <= |cart| && k <= |otps| && k <= |txIds|
    requires forall i :: 0 <= i < k ==> cart[i].product in products
    requires j < k
    ensures IsPlacedOrder(NewOrders(buyer, cart, products, otps, txIds, k)[j],
                          buyer, cart[j], products[cart[j].product], OtpText(otps[j]), txIds[j])
    decreases k
  {
    if j < k - 1 {
      NewOrdersArePlaced(buyer, cart, products, otps, txIds, k - 1, j);
    }
  }

  /** Entry `j` of the response names the `j`-th new order. */
  lemma {:induction false} PlacedListAt(base: nat, otps: seq<nat>, k: nat, j: nat)
    requires k <= |otps| && j < k
    ensures PlacedList(base, otps, k)[j] == Placed(base + j, OtpText(otps[j]))
    decreases k
  {
    if j < k - 1 {
      PlacedListAt(base, otps, k - 1, j);
    }
  }

  /** One iteration of the checkout loop: the order for cart line `i`,
      recorded on its buyer and its seller, extends the orders created so
      far by the order that line describes. */
  method PlaceLine(db: Db, caller: UserId, cart: seq<CartItem>, otps: seq<nat>, txIds: seq<string>,
                   ghost orders0: seq<Order>, i: nat) returns (p: Placed)
    requires db.Valid()
    requires caller < |db.users| && db.users[caller].cart == cart
    requires i < |cart| && |otps| == |cart| && |txIds| == |cart|
    requires forall j :: 0 <= j <= i ==> cart[j].product in db.products
    requires |txIds[i]| > 0
    requires forall j, k :: 0 <= j < k < |txIds| ==> txIds[j] != txIds[k]
    requires TxFresh(db.orders, txIds, i)
    requires db.orders == orders0 + NewOrders(caller, cart, db.products, otps, txIds, i)
    modifies db
    ensures db.Valid()
    ensures db.products == old(db.products) && Profiles(db.users) == Profiles(old(db.users))
    ensures |db.users| == |old(db.users)| && db.users[caller].cart == cart
    ensures db.orders == orders0 + NewOrders(caller, cart, db.products, otps, txIds, i + 1)
    ensures TxFresh(db.orders, txIds, i + 1)
    ensures p == Placed(|old(db.orders)|, OtpText(otps[i]))
  {
    var product := db.products[cart[i].product];
    var order := NewOrder(caller, cart[i], product, otps[i], txIds[i]);
    var id := |db.orders|;
    AppendOrder(db.users, db.products, db.orders, order);
    IssueTx(db.orders, order, txIds, i);
    db.users, db.orders := PushSellerOrder(PushOrder(db.users, caller, id), product.sellerId, id), db.orders + [order];
    p := Placed(id, OtpText(otps[i]));
    assert Profiles(db.users)[caller] == Profiles(old(db.users))[caller];
  }

  /** No transaction id from position `i` on is held by an order yet. */
  predicate TxFresh(orders: seq<Order>, txIds: seq<string>, i: nat) {
    forall n, k :: 0 <= n < |orders| && i <= k < |txIds| ==> orders[n].transactionId != txIds[k]
  }

  /** Issuing `txIds[i]` to one more order keeps the ids not yet issued
      fresh. */
  lemma IssueTx(orders: seq<Order>, o: Order, txIds: seq<string>, i: nat)
    requires i < |txIds| && o.transactionId == txIds[i]
    requires forall j, k :: 0 <= j < k < |txIds| ==> txIds[j] != txIds[k]
    requires TxFresh(orders, txIds, i)
    ensures TxFresh(orders + [o], txIds, i + 1)
  {
  }

  /** The checkout loop: one order per cart line, stopping at the first line
      whose product no longer exists. */
  method PlaceLines(db: Db, caller: UserId, cart: seq<CartItem>, otps: seq<nat>, txIds: seq<string>)
      returns (placed: seq<Placed>, i: nat)
    requires db.Valid()
    requires caller < |db.users| && db.users[caller].cart == cart
    requires |otps| == |cart| && |txIds| == |cart|
    requires forall j :: 0 <= j < |txIds| ==> |txIds[j]| > 0
    requires forall j, k :: 0 <= j < k < |txIds| ==> txIds[j] != txIds[k]
    requires TxFresh(db.orders, txIds, 0)
    modifies db
    ensures db.Valid()
    ensures db.products == old(db.products) && Profiles(db.users) == Profiles(old(db.users))
    ensures |db.users| == |old(db.users)| && db.users[caller].cart == cart
    ensures i == LinesPlaced(cart, db.products)
    ensures db.orders == old(db.orders) + NewOrders(caller, cart, db.products, otps, txIds, i)
    ensures placed == PlacedList(|old(db.orders)|, otps, i)
  {
    ghost var orders0 := db.orders;
    var products := db.products;
    placed, i := [], 0;
    while i < |cart| && cart[i].product in products
      invariant 0 <= i <= |cart| && forall j :: 0 <= j < i ==> cart[j].product in products
      invariant db.products == products && Profiles(db.users) == Profiles(old(db.users))
      invariant |db.users| == |old(db.users)| && db.users[caller].cart == cart
      invariant db.orders == orders0 + NewOrders(caller, cart, products, otps, txIds, i)
      invariant placed == PlacedList(|orders0|, otps, i)
      invariant TxFresh(db.orders, txIds, i)
      invariant db.Valid()
    {
      var p := PlaceLine(db, caller, cart, otps, txIds, orders0, i);
      placed := placed + [p];
      i := i + 1;
    }
  }

  /** POST /orders/place.  `otps` and `txIds` stand for the random numbers
      and uuids drawn, one per cart line.  Checkout creates the orders of
      the cart lines up to the first line whose product no longer exists;
      it empties the cart only when it gets through all of them. */
  method Place(db: Db, caller: UserId, otps: seq<nat>, txIds: seq<string>) returns (r: Result<seq<Placed>>)
    requires db.Valid()
    requires caller < |db.users| ==> |otps| == |db.users[caller].cart| && |txIds| == |db.users[caller].cart|
    requires forall j :: 0 <= j < |otps| ==> IsOtpValue(otps[j])
    requires forall j :: 0 <= j < |txIds| ==> |txIds[j]| > 0
    requires forall j, k :: 0 <= j < k < |txIds| ==> txIds[j] != txIds[k]
    requires forall j, n :: 0 <= j < |txIds| && 0 <= n < |db.orders| ==> txIds[j] != db.orders[n].transactionId
    modifies db
    ensures db.Valid()
    ensures db.products == old(db.products) && |db.users| == |old(db.users)|
    ensures caller >= |old(db.users)| ==> r == Err(Internal) && unchanged(db)
    ensures caller < |old(db.users)| && old(db.users[caller].cart) == [] ==> r == Err(BadRequest) && unchanged(db)
    ensures caller < |old(db.users)| && old(db.users[caller].cart) != [] ==>
      var cart := old(db.users[caller].cart);
      var k := LinesPlaced(cart, db.products);
      && db.orders == old(db.orders) + NewOrders(caller, cart, db.products, otps, txIds, k)
      && (r.Ok? <==> k == |cart|)
      && (r.Ok? ==> r.value == PlacedList(|old(db.orders)|, otps, k) && db.users[caller].cart == [])
      && (r.Err? ==> r.error == Internal && db.users[caller].cart == cart)
      && Profiles(db.users[caller := db.users[caller].(cart := cart)]) == Profiles(old(db.users))
  {
    if caller >= |db.users| {
      // `user.cart` on a missing user throws
      return Err(Internal);
    }
    var cart := db.users[caller].cart;
    if |cart| == 0 {
      return Err(BadRequest);
    }
    var placed, i := PlaceLines(db, caller, cart, otps, txIds);
    if i < |cart| {
      // the line's product was deleted: populate yields null and reading its price throws
      r := Err(Internal);
    } else {
      ReplaceUser(db.users, db.products, db.orders, caller, db.users[caller].(cart := []));
      db.users := db.users[caller := db.users[caller].(cart := [])];
      r := Ok(placed);
    }
  }

  // ----- OTP regeneration and completion -----

  /** The order collection after the seller asks for a fresh OTP drawn
      from `n`: only the order's hash changes. */
  function Regeneration(orders: seq<Order>, caller: UserId, id: OrderId, n: nat): (r: Result<seq<Order>>)
    ensures r.Ok? <==> id < |orders| && orders[id].sellerId == caller
    ensures r.Err? ==> r.error == Forbidden
    ensures r.Ok? ==> |r.value| == |orders| && forall i :: 0 <= i < |orders| && i != id ==> r.value[i] == orders[i]
    ensures r.Ok? ==> r.value[id].(otp := orders[id].otp) == orders[id]
    ensures r.Ok? ==> Crypto.Matches(OtpText(n), r.value[id].otp)
  {
    if id < |orders| && orders[id].sellerId == caller
    then Ok(orders[id := orders[id].(otp := Crypto.HashOf(OtpText(n)))])
    else Err(Forbidden)
  }

  /** The order collection after the seller submits `entered`: the order
      becomes Completed when the code is accepted, whatever its status was. */
  function Completion(orders: seq<Order>, caller: UserId, id: OrderId, entered: string): (r: Result<seq<Order>>)
    ensures r == Err(Forbidden) <==> !(id < |orders| && orders[id].sellerId == caller)
    ensures r == Err(BadRequest) <==>
              id < |orders| && orders[id].sellerId == caller && !OtpAccepted(entered, orders[id].otp)
    ensures r.Ok? <==> id < |orders| && orders[id].sellerId == caller && OtpAccepted(entered, orders[id].otp)
    ensures r.Ok? ==> |r.value| == |orders| && forall i :: 0 <= i < |orders| && i != id ==> r.value[i] == orders[i]
    ensures r.Ok? ==> r.value[id].status == Completed && r.value[id].(status := orders[id].status) == orders[id]
  {
    if !(id < |orders| && orders[id].sellerId == caller) then Err(Forbidden)
    else if !OtpAccepted(entered, orders[id].otp) then Err(BadRequest)
    else Ok(orders[id := orders[id].(status := Completed)])
  }

  /** POST /orders/generate-otp/:orderId.  The raw OTP is not returned. */
  method GenerateOtp(db: Db, caller: UserId, id: OrderId, n: nat) returns (r: Result<()>)
    requires db.Valid()
    requires IsOtpValue(n)
    modifies db
    ensures db.Valid()
    ensures db.users == old(db.users) && db.products == old(db.products)
    ensures r.Ok? <==> Regeneration(old(db.orders), caller, id, n).Ok?
    ensures r.Err? ==> r.error == Forbidden && db.orders == old(db.orders)
    ensures r.Ok? ==> db.orders == Regeneration(old(db.orders), caller, id, n).value
  {
    if !(id < |db.orders| && db.orders[id].sellerId == caller) {
      return Err(Forbidden);
    }
    var hashed := Crypto.HashOf(OtpText(n));
    UpdateKeepsCrossRefs(db.users, db.orders, id, db.orders[id].(otp := hashed));
    db.orders := db.orders[id := db.orders[id].(otp := hashed)];
    r := Ok(());
  }

  /** PATCH /orders/complete/:orderId, and POST /orders/complete with the
      order id in the body: the same check and the same update. */
  method CompleteOrder(db: Db, caller: UserId, id: OrderId, entered: string) returns (r: Result<Order>)
    requires db.Valid()
    modifies db
    ensures db.Valid()
    ensures db.users == old(db.users) && db.products == old(db.products)
    ensures r.Err? <==> Completion(old(db.orders), caller, id, entered).Err?
    ensures r.Err? ==> r.error == Completion(old(db.orders), caller, id, entered).error && db.orders == old(db.orders)
    ensures r.Ok? ==> db.orders == Completion(old(db.orders), caller, id, entered).value && r.value == db.orders[id]
  {
    if !(id < |db.orders| && db.orders[id].sellerId == caller) {
      return Err(Forbidden);
    }
    var isOtpValid := Crypto.Matches(entered, db.orders[id].otp);
    var alternateValidation := entered == BypassOtp;
    if !isOtpValid && !alternateValidation {
      return Err(BadRequest);
    }
    var order := db.orders[id].(status := Completed);
    UpdateKeepsCrossRefs(db.users, db.orders, id, order);
    db.orders := db.orders[id := order];
    r := Ok(order);
  }

  /** Checkout hands the buyer the OTP of each order it creates, and that
      OTP completes the order. */
  lemma PlacedOtpCompletes(orders: seq<Order>, id: OrderId, buyer: UserId, line: CartItem,
                           product: Product, rawOtp: string, tx: string)
    requires id < |orders|
    requires IsPlacedOrder(orders[id], buyer, line, product, rawOtp, tx)
    ensures Completion(orders, product.sellerId, id, rawOtp).Ok?
  {
  }

  /** After a regeneration from `n`, the new OTP completes the order and an
      OTP drawn from any other number is rejected: regeneration invalidates
      the previous code (unless the same number is drawn again). */
  lemma RegenerationReplacesOtp(orders: seq<Order>, caller: UserId, id: OrderId, m: nat, n: nat)
    requires IsOtpValue(m) && IsOtpValue(n)
    requires Regeneration(orders, caller, id, n).Ok?
    ensures Completion(Regeneration(orders, caller, id, n).value, caller, id, OtpText(n)).Ok?
    ensures m != n ==> Completion(Regeneration(orders, caller, id, n).value, caller, id, OtpText(m)) == Err(BadRequest)
  {
    OtpAcceptedExactly(n, n);
    OtpAcceptedExactly(m, n);
  }

  /** The bypass code completes every order of the caller, whatever its hash. */
  lemma BypassCompletesAnyOrder(orders: seq<Order>, caller: UserId, id: OrderId)
    requires id < |orders| && orders[id].sellerId == caller
    ensures Completion(orders, caller, id, BypassOtp).Ok?
  {
  }

  /** Completing an order that is already Completed succeeds again and
      changes nothing: the route does not reject a second completion. */
  lemma CompletionIdempotent(orders: seq<Order>, caller: UserId, id: OrderId, entered: string)
    requires Completion(orders, caller, id, entered).Ok?
    ensures Completion(Completion(orders, caller, id, entered).value, caller, id, entered) ==
            Completion(orders, caller, id, entered)
  {
    var once := Completion(orders, caller, id, entered).value;
    assert once[id].otp == orders[id].otp;
    assert once[id := once[id].(status := Completed)] == once;
  }

  /** No route produces a Processed order: regeneration and completion never
      set that status, and checkout creates Pending orders. */
  lemma NeverProcessed(orders: seq<Order>, caller: UserId, id: OrderId, n: nat, entered: string)
    ensures Regeneration(orders, caller, id, n).Ok? ==>
      forall i :: 0 <= i < |orders| && Regeneration(orders, caller, id, n).value[i].status == Processed ==>
        orders[i].status == Processed
    ensures Completion(orders, caller, id, entered).Ok? ==>
      forall i :: 0 <= i < |orders| && Completion(orders, caller, id, entered).value[i].status == Processed ==>
        orders[i].status == Processed
  {
  }

  // ----- queries -----

  /** GET /orders/to-deliver: the caller's orders as seller that are Pending
      or Processed.  The query does not sort; the ids are listed in
      creation order, standing for the database's natural order. */
  function ToDeliver(orders: seq<Order>, caller: UserId): (ids: seq<OrderId>)
    ensures forall i :: i in ids <==> 0 <= i < |orders| && orders[i].sellerId == caller && orders[i].status != Completed
    ensures forall j, k :: 0 <= j < k < |ids| ==> ids[j] < ids[k]
  {
    IdsWhereSpec(orders, ToDeliverOf(caller));
    IdsWhere(orders, ToDeliverOf(caller))
  }

  /** GET /orders/my-orders and GET /orders/buyer: the caller's orders as
      buyer, newest first. */
  function MyOrders(orders: seq<Order>, caller: UserId): (ids: seq<OrderId>)
    ensures forall i :: i in ids <==> 0 <= i < |orders| && orders[i].buyerId == caller
    ensures forall j, k :: 0 <= j < k < |ids| ==> ids[j] > ids[k]
  {
    var asc := IdsWhere(orders, BuyerIs(caller));
    IdsWhereSpec(orders, BuyerIs(caller));
    var ids := Seqs.Reverse(asc);
    assert forall i :: i in ids <==> i in asc by {
      forall i | i in asc ensures i in ids {
        var k :| 0 <= k < |asc| && asc[k] == i;
        assert ids[|asc| - 1 - k] == i;
      }
    }
    ids
  }

  /** GET /orders/seller-orders: the caller's orders as seller, newest first. */
  function SellerOrders(orders: seq<Order>, caller: UserId): (ids: seq<OrderId>)
    ensures forall i :: i in ids <==> 0 <= i < |orders| && orders[i].sellerId == caller
    ensures forall j, k :: 0 <= j < k < |ids| ==> ids[j] > ids[k]
  {
    var asc := IdsWhere(orders, SellerIs(caller));
    IdsWhereSpec(orders, SellerIs(caller));
    var ids := Seqs.Reverse(asc);
    assert forall i :: i in ids <==> i in asc by {
      forall i | i in asc ensures i in ids {
        var k :| 0 <= k < |asc| && asc[k] == i;
        assert ids[|asc| - 1 - k] == i;
      }
    }
    ids
  }

  /** The buyer query lists exactly the ids in the buyer's `orders`, and the
      seller query exactly those in `sellerOrders`, newest first. */
  lemma QueriesMatchUserLists(db: Db, u: UserId)
    requires db.Valid() && u < |db.users|
    ensures MyOrders(db.orders, u) == Seqs.Reverse(db.users[u].orders)
    ensures SellerOrders(db.orders, u) == Seqs.Reverse(db.users[u].sellerOrders)
  {
  }

  /** A completed order leaves the seller's to-deliver list; every other
      order stays where it was. */
  lemma CompletionLeavesToDeliver(orders: seq<Order>, caller: UserId, id: OrderId, entered: string)
    requires Completion(orders, caller, id, entered).Ok?
    ensures id !in ToDeliver(Completion(orders, caller, id, entered).value, caller)
    ensures forall i :: i != id ==>
              (i in ToDeliver(Completion(orders, caller, id, entered).value, caller) <==> i in ToDeliver(orders, caller))
  {
  }
}

=== FILE: product_model.dfy ===
/** A catalogue entry, with the fields the routes and pages read.  The
    product schema file itself is not part of this model. */
module ProductModel {
  import opened Common

  datatype Product = Product(
    sellerId: UserId,
    name: string,
    price: int,
    description: string,
    category: Option<string>)
}

=== FILE: products_page.dfy ===
/** The product list page: the search and category filter, the category
    check boxes, and the list of categories offered. */
module ProductsPage {
  import opened Common
  import opened Text
  import opened ProductModel
  import opened Seqs

  const Uncategorized: string := "Uncategorized"

  /** `product.category || "Uncategorized"`: a missing or empty category
      shows as "Uncategorized". */
  function CategoryOf(p: Product): (c: string)
    ensures p.category.Some? && p.category.value != "" ==> c == p.category.value
    ensures p.category.None? || p.category.value == "" ==> c == Uncategorized
    ensures |c| > 0
  {
    match p.category
    case Some(c) => if c != "" then c else Uncategorized
    case None => Uncategorized
  }

  /** The product's lower-cased name contains the lower-cased search text. */
  predicate MatchesSearch(p: Product, search: string) {
    Contains(Lower(p.name), Lower(search))
  }

  /** The filter test: the search matches and, when some categories are
      selected, the product's category is one of them. */
  predicate Shown(p: Product, search: string, selected: seq<string>) {
    MatchesSearch(p, search) && (|selected| == 0 || CategoryOf(p) in selected)
  }

  /** `filteredProducts`: the products that pass the filter, in list order. */
  function FilterProducts(products: seq<Product>, search: string, selected: seq<string>): (r: seq<Product>)
    ensures IsSubsequence(r, products)
    ensures forall i :: 0 <= i < |r| ==> Shown(r[i], search, selected)
    ensures forall i :: 0 <= i < |products| && Shown(products[i], search, selected) ==> products[i] in r
    ensures forall x :: multiset(r)[x] == if Shown(x, search, selected) then multiset(products)[x] else 0
  {
    FilterIsSubsequence(products, p => Shown(p, search, selected));
    forall x
      ensures multiset(Filter(products, p => Shown(p, search, selected)))[x] ==
              if Shown(x, search, selected) then multiset(products)[x] else 0
    {
      FilterCount(products, p => Shown(p, search, selected), x);
    }
    Filter(products, p => Shown(p, search, selected))
  }

  /** Searching for a text and for its lower-cased form shows the same
      products. */
  lemma SearchIgnoresCase(p: Product, search: string)
    ensures MatchesSearch(p, Lower(search)) == MatchesSearch(p, search)
  {
    LowerIdempotent(search);
  }

  /** The empty search matches every product. */
  lemma EmptySearchMatches(p: Product)
    ensures MatchesSearch(p, "")
  {
    assert Lower("") == "";
    assert IsPrefix("", Lower(p.name));
  }

  /** With no category selected, the result is the search filter alone. */
  lemma NoSelectionIsSearchOnly(products: seq<Product>, search: string)
    ensures FilterProducts(products, search, []) == Filter(products, p => MatchesSearch(p, search))
  {
    FilterSame(products, p => Shown(p, search, []), p => MatchesSearch(p, search));
  }

  /** An empty search with no category selected shows every product. */
  lemma NoFilterShowsAll(products: seq<Product>)
    ensures FilterProducts(products, "", []) == products
  {
    forall i | 0 <= i < |products|
      ensures Shown(products[i], "", [])
    {
      EmptySearchMatches(products[i]);
    }
    FilterKeepsAll(products, p => Shown(p, "", []));
  }

  /** `handleCategoryChange`: a selected category is removed, any other is
      appended. */
  function ToggleCategory(selected: seq<string>, c: string): (r: seq<string>)
    ensures c in selected ==> c !in r && forall x :: x in r <==> x in selected && x != c
    ensures c !in selected ==> r == selected + [c]
  {
    if c in selected then Filter(selected, x => x != c) else selected + [c]
  }

  /** Toggling a category twice restores the selection exactly when it was
      not selected, and restores the same set of categories when it was. */
  lemma ToggleTwice(selected: seq<string>, c: string)
    ensures c !in selected ==> ToggleCategory(ToggleCategory(selected, c), c) == selected
    ensures forall x :: x in ToggleCategory(ToggleCategory(selected, c), c) <==> x in selected
  {
    if c !in selected {
      FilterConcat(selected, [c], x => x != c);
      FilterKeepsAll(selected, x => x != c);
      assert Filter([c], x => x != c) == [];
    }
  }

  /** Toggling keeps the selection free of duplicates. */
  lemma ToggleKeepsNoDuplicates(selected: seq<string>, c: string)
    requires NoDuplicates(selected)
    ensures NoDuplicates(ToggleCategory(selected, c))
  {
    if c in selected {
      FilterNoDuplicates(selected, x => x != c);
    }
  }

  /** The category of every product, in product order. */
  function Categories(products: seq<Product>): (cs: seq<string>)
    ensures |cs| == |products|
    ensures forall i :: 0 <= i < |products| ==> cs[i] == CategoryOf(products[i])
  {
    seq(|products|, i requires 0 <= i < |products| => CategoryOf(products[i]))
  }

  /** The categories offered: each product's category once, in order of
      first appearance. */
  function UniqueCategories(products: seq<Product>): (cats: seq<string>)
    ensures NoDuplicates(cats)
    ensures forall i :: 0 <= i < |products| ==> CategoryOf(products[i]) in cats
    ensures forall k :: 0 <= k < |cats| ==> exists i :: 0 <= i < |products| && cats[k] == CategoryOf(products[i])
  {
    var cs := Categories(products);
    var cats := Dedupe(cs);
    assert forall k :: 0 <= k < |cats| ==> cats[k] in cs;
    cats
  }

  /** The category list after a fetch: recomputed only when some products
      arrived, otherwise left as it was. */
  function CategoriesAfterFetch(previous: seq<string>, products: seq<Product>): (cats: seq<string>)
    ensures |products| == 0 ==> cats == previous
    ensures |products| > 0 ==> NoDuplicates(cats) && forall i :: 0 <= i < |products| ==> CategoryOf(products[i]) in cats
    ensures |products| > 0 ==> forall k :: 0 <= k < |cats| ==> exists i :: 0 <= i < |products| && cats[k] == CategoryOf(products[i])
  {
    if |products| > 0 then UniqueCategories(products) else previous
  }
}

=== FILE: seqs.dfy ===
/** The array operations the source uses on lists: `filter`, reversal for a
    newest-first sort, and de-duplication through a `Set`. */
module Seqs {

  /** `s.filter(p)`: the elements of `s` that satisfy `p`, in their order. */
  function Filter<T>(s: seq<T>, p: T -> bool): (r: seq<T>)
    ensures |r| <= |s|
    ensures forall i :: 0 <= i < |r| ==> r[i] in s && p(r[i])
    ensures forall i :: 0 <= i < |s| && p(s[i]) ==> s[i] in r
    decreases |s|
  {
    if s == [] then []
    else (if p(s[0]) then [s[0]] else []) + Filter(s[1..], p)
  }

  /** `a` is `b` with some elements left out and the rest in their order. */
  predicate IsSubsequence<T(==)>(a: seq<T>, b: seq<T>)
    decreases |b|
  {
    if b == [] then a == []
    else (a != [] && a[0] == b[0] && IsSubsequence(a[1..], b[1..])) || IsSubsequence(a, b[1..])
  }

  lemma {:induction false} FilterIsSubsequence<T>(s: seq<T>, p: T -> bool)
    ensures IsSubsequence(Filter(s, p), s)
    decreases |s|
  {
    if s != [] {
      FilterIsSubsequence(s[1..], p);
      var rest := Filter(s[1..], p);
      if p(s[0]) {
        assert Filter(s, p) == [s[0]] + rest;
        assert ([s[0]] + rest)[1..] == rest;
      } else {
        assert Filter(s, p) == rest;
      }
    }
  }

  /** Two predicates that agree on the elements of `s` select the same list. */
  lemma {:induction false} FilterSame<T>(s: seq<T>, p: T -> bool, q: T -> bool)
    requires forall i :: 0 <= i < |s| ==> p(s[i]) == q(s[i])
    ensures Filter(s, p) == Filter(s, q)
    decreases |s|
  {
    if s != [] {
      FilterSame(s[1..], p, q);
    }
  }

  /** A predicate true of every element keeps the whole list. */
  lemma {:induction false} FilterKeepsAll<T>(s: seq<T>, p: T -> bool)
    requires forall i :: 0 <= i < |s| ==> p(s[i])
    ensures Filter(s, p) == s
    decreases |s|
  {
    if s != [] {
      FilterKeepsAll(s[1..], p);
      assert [s[0]] + s[1..] == s;
    }
  }

  /** Filtering by a predicate and by its negation splits the list: every
      element lands in exactly one of the two results. */
  lemma {:induction false} FilterPartition<T>(s: seq<T>, p: T -> bool, q: T -> bool)
    requires forall x :: q(x) == !p(x)
    ensures multiset(Filter(s, p)) + multiset(Filter(s, q)) == multiset(s)
    decreases |s|
  {
    if s != [] {
      var x, rest := s[0], s[1..];
      FilterPartition(rest, p, q);
      assert s == [x] + rest;
      assert multiset(s) == multiset{x} + multiset(rest);
      if p(x) {
        assert Filter(s, p) == [x] + Filter(rest, p);
        assert Filter(s, q) == Filter(rest, q);
      } else {
        assert Filter(s, p) == Filter(rest, p);
        assert Filter(s, q) == [x] + Filter(rest, q);
      }
    }
  }

  /** Filtering keeps every copy of a kept element and no copy of a dropped
      one. */
  lemma {:induction false} FilterCount<T>(s: seq<T>, p: T -> bool, x: T)
    ensures multiset(Filter(s, p))[x] == if p(x) then multiset(s)[x] else 0
    decreases |s|
  {
    if s != [] {
      var y, rest := s[0], s[1..];
      FilterCount(rest, p, x);
      assert s == [y] + rest;
      assert Filter(s, p) == (if p(y) then [y] else []) + Filter(rest, p);
    }
  }

  /** Filtering a concatenation filters each part. */
  lemma {:induction false} FilterConcat<T>(a: seq<T>, b: seq<T>, p: T -> bool)
    ensures Filter(a + b, p) == Filter(a, p) + Filter(b, p)
    decreases |a|
  {
    if a != [] {
      assert (a + b)[1..] == a[1..] + b;
      FilterConcat(a[1..], b, p);
    } else {
      assert a + b == b;
    }
  }

  /** Filtering a list without duplicates gives a list without duplicates. */
  lemma {:induction false} FilterNoDuplicates<T>(s: seq<T>, p: T -> bool)
    requires NoDuplicates(s)
    ensures NoDuplicates(Filter(s, p))
    decreases |s|
  {
    if s != [] {
      FilterNoDuplicates(s[1..], p);
      var rest := Filter(s[1..], p);
      assert s[0] !in s[1..];
      assert s[0] !in rest;
    }
  }

  /** The list read back to front. */
  function Reverse<T>(s: seq<T>): (r: seq<T>)
    ensures |r| == |s|
    ensures forall i :: 0 <= i < |s| ==> r[i] == s[|s| - 1 - i]
    decreases |s|
  {
    if s == [] then [] else Reverse(s[1..]) + [s[0]]
  }

  predicate NoDuplicates<T(==)>(s: seq<T>) {
    forall i, j :: 0 <= i < j < |s| ==> s[i] != s[j]
  }

  /** `Array.from(new Set(s))`: the distinct elements, in order of first
      occurrence (proved in `DedupeFirstOccurrence`). */
  function Dedupe<T(==)>(s: seq<T>): (r: seq<T>)
    ensures NoDuplicates(r)
    ensures forall i :: 0 <= i < |r| ==> r[i] in s
    ensures forall i :: 0 <= i < |s| ==> s[i] in r
    decreases |s|
  {
    if s == [] then []
    else
      var d := Dedupe(s[..|s| - 1]);
      assert forall i :: 0 <= i < |s| - 1 ==> s[i] == s[..|s| - 1][i];
      if s[|s| - 1] in d then d else d + [s[|s| - 1]]
  }

  /** The position of the first occurrence of `x` in `s`. */
  function FirstIndex<T(==)>(s: seq<T>, x: T): (k: nat)
    requires x in s
    ensures k < |s| && s[k] == x
    ensures forall i :: 0 <= i < k ==> s[i] != x
    decreases |s|
  {
    if s[0] == x then 0 else 1 + FirstIndex(s[1..], x)
  }

  /** Appending an element moves no first occurrence of an element that
      was already there. */
  lemma FirstIndexAppend<T>(s: seq<T>, x: T, y: T)
    requires y in s
    ensures FirstIndex(s + [x], y) == FirstIndex(s, y)
  {
    assert (s + [x])[FirstIndex(s, y)] == y;
  }

  /** The distinct elements are listed in the order in which they first
      occur in `s`. */
  lemma {:induction false} DedupeFirstOccurrence<T>(s: seq<T>)
    ensures forall j, k :: 0 <= j < k < |Dedupe(s)| ==>
              FirstIndex(s, Dedupe(s)[j]) < FirstIndex(s, Dedupe(s)[k])
    decreases |s|
  {
    if s != [] {
      var n := |s| - 1;
      var front, x := s[..n], s[n];
      assert s == front + [x];
      DedupeFirstOccurrence(front);
      var d, r := Dedupe(front), Dedupe(s);
      forall j, k | 0 <= j < k < |r|
        ensures FirstIndex(s, r[j]) < FirstIndex(s, r[k])
      {
        assert r[j] == d[j];
        FirstIndexAppend(front, x, r[j]);
        if k < |d| {
          assert r[k] == d[k];
          FirstIndexAppend(front, x, r[k]);
        } else {
          assert r[k] == x && x !in front;
        }
      }
    }
  }
}

=== FILE: store.dfy ===
/** The document store the routes share: the user, product and order
    collections, held in one object that the routes update in place. */
module Store {
  import opened Common
  import opened UserModel
  import opened ProductModel
  import opened OrderModel

  /** The buyer and seller lists of every user are exactly the ids of the
      orders that name the user as buyer, resp. seller, in creation order. */
  ghost predicate CrossRefs(users: seq<User>, orders: seq<Order>) {
    forall u {:trigger IdsWhere(orders, BuyerIs(u))} {:trigger IdsWhere(orders, SellerIs(u))} :: 0 <= u < |users| ==>
      users[u].orders == IdsWhere(orders, BuyerIs(u)) &&
      users[u].sellerOrders == IdsWhere(orders, SellerIs(u))
  }

  /** At most one cart line per product. */
  predicate SingleLinePerProduct(cart: seq<CartItem>) {
    forall i, j :: 0 <= i < j < |cart| ==> cart[i].product != cart[j].product
  }

  /** `$push: { orders: id }` on user `u`; no effect if there is no such user. */
  function PushOrder(users: seq<User>, u: UserId, id: OrderId): (r: seq<User>)
    ensures |r| == |users|
    ensures u < |users| ==> r[u] == users[u].(orders := users[u].orders + [id])
    ensures forall v :: 0 <= v < |users| && v != u ==> r[v] == users[v]
  {
    if u < |users| then users[u := users[u].(orders := users[u].orders + [id])] else users
  }

  /** `$push: { sellerOrders: id }` on user `u`; no effect if there is no such user. */
  function PushSellerOrder(users: seq<User>, u: UserId, id: OrderId): (r: seq<User>)
    ensures |r| == |users|
    ensures u < |users| ==> r[u] == users[u].(sellerOrders := users[u].sellerOrders + [id])
    ensures forall v :: 0 <= v < |users| && v != u ==> r[v] == users[v]
  {
    if u < |users| then users[u := users[u].(sellerOrders := users[u].sellerOrders + [id])] else users
  }

  /** Recording a new order on its buyer and its seller keeps the lists in
      step with the orders. */
  lemma RecordOrder(users: seq<User>, orders: seq<Order>, o: Order)
    requires CrossRefs(users, orders)
    requires o.buyerId < |users| && o.sellerId < |users|
    ensures CrossRefs(PushSellerOrder(PushOrder(users, o.buyerId, |orders|), o.sellerId, |orders|), orders + [o])
  {
    var after := PushSellerOrder(PushOrder(users, o.buyerId, |orders|), o.sellerId, |orders|);
    forall u | 0 <= u < |users|
      ensures after[u].orders == IdsWhere(orders + [o], BuyerIs(u))
      ensures after[u].sellerOrders == IdsWhere(orders + [o], SellerIs(u))
    {
      IdsWhereAppend(orders, o, BuyerIs(u));
      IdsWhereAppend(orders, o, SellerIs(u));
    }
  }

  /** Every other change to an order (status, password hash) keeps the lists
      in step. */
  lemma UpdateKeepsCrossRefs(users: seq<User>, orders: seq<Order>, id: OrderId, o: Order)
    requires CrossRefs(users, orders)
    requires id < |orders|
    requires o.buyerId == orders[id].buyerId && o.sellerId == orders[id].sellerId
    ensures CrossRefs(users, orders[id := o])
  {
    forall u | 0 <= u < |users|
      ensures users[u].orders == IdsWhere(orders[id := o], BuyerIs(u))
      ensures users[u].sellerOrders == IdsWhere(orders[id := o], SellerIs(u))
    {
      IdsWhereSameParties(orders, orders[id := o], BuyerIs(u));
      IdsWhereSameParties(orders, orders[id := o], SellerIs(u));
    }
  }

  /** The store invariant: every user satisfies the schema and has at most
      one cart line per product; e-mails and transaction ids are unique;
      products and orders refer to existing users; and each user's order
      lists match the orders collection. */
  ghost predicate Consistent(users: seq<User>, products: map<ProductId, Product>, orders: seq<Order>) {
    && (forall u :: 0 <= u < |users| ==> SchemaValid(users[u]) && SingleLinePerProduct(users[u].cart))
    && DistinctEmails(users)
    && (forall p :: p in products ==> products[p].sellerId < |users|)
    && (forall i :: 0 <= i < |orders| ==>
          WellFormed(orders[i]) && orders[i].buyerId < |users| && orders[i].sellerId < |users|)
    && DistinctTransactions(orders)
    && CrossRefs(users, orders)
  }

  /** A user with the order lists erased: the part of the record that only
      the user's own routes change. */
  function Profile(u: User): User {
    u.(orders := [], sellerOrders := [])
  }

  /** Every user's profile, in user order. */
  function Profiles(users: seq<User>): (r: seq<User>)
    ensures |r| == |users|
  {
    seq(|users|, u requires 0 <= u < |users| => Profile(users[u]))
  }

  /** Recording an order on a user changes no profile. */
  lemma PushKeepsProfiles(users: seq<User>, u: UserId, id: OrderId)
    ensures Profiles(PushOrder(users, u, id)) == Profiles(users)
    ensures Profiles(PushSellerOrder(users, u, id)) == Profiles(users)
  {
    if u < |users| {
      assert Profiles(PushOrder(users, u, id)) == Profiles(users)[u := Profile(users[u])];
      assert Profiles(PushSellerOrder(users, u, id)) == Profiles(users)[u := Profile(users[u])];
    }
  }

  /** Creating a well-formed order with a fresh transaction id between
      existing users, and recording it on its buyer and seller, keeps the
      store invariant and changes no profile. */
  lemma AppendOrder(users: seq<User>, products: map<ProductId, Product>, orders: seq<Order>, o: Order)
    requires Consistent(users, products, orders)
    requires WellFormed(o) && o.buyerId < |users| && o.sellerId < |users|
    requires forall i :: 0 <= i < |orders| ==> orders[i].transactionId != o.transactionId
    ensures var after := PushSellerOrder(PushOrder(users, o.buyerId, |orders|), o.sellerId, |orders|);
            Consistent(after, products, orders + [o]) && Profiles(after) == Profiles(users)
  {
    var mid := PushOrder(users, o.buyerId, |orders|);
    var after := PushSellerOrder(mid, o.sellerId, |orders|);
    RecordOrder(users, orders, o);
    PushKeepsProfiles(users, o.buyerId, |orders|);
    PushKeepsProfiles(mid, o.sellerId, |orders|);
    forall u | 0 <= u < |users|
      ensures Profile(after[u]) == Profile(users[u])
    {
      assert Profiles(after)[u] == Profiles(users)[u];
    }
  }

  /** When the orders only grow, the invariant alone fixes how every user's
      lists grow: by the ids of the new orders naming the user, in order. */
  lemma ListsExtend(users: seq<User>, orders: seq<Order>, users': seq<User>, orders': seq<Order>, u: UserId)
    requires CrossRefs(users, orders) && CrossRefs(users', orders')
    requires |orders| <= |orders'| && orders'[..|orders|] == orders
    requires u < |users| && u < |users'|
    ensures users'[u].orders == users[u].orders + Shift(IdsWhere(orders'[|orders|..], BuyerIs(u)), |orders|)
    ensures users'[u].sellerOrders == users[u].sellerOrders + Shift(IdsWhere(orders'[|orders|..], SellerIs(u)), |orders|)
  {
    assert orders' == orders + orders'[|orders|..];
    IdsWhereExtend(orders, orders'[|orders|..], BuyerIs(u));
    IdsWhereExtend(orders, orders'[|orders|..], SellerIs(u));
  }

  /** Replacing a user's record by one that passes the schema, has at most
      one cart line per product, keeps the user's order lists and holds an
      e-mail no other user has keeps the store invariant. */
  lemma ReplaceUser(users: seq<User>, products: map<ProductId, Product>, orders: seq<Order>, u: UserId, w: User)
    requires Consistent(users, products, orders) && u < |users|
    requires SchemaValid(w) && SingleLinePerProduct(w.cart)
    requires w.orders == users[u].orders && w.sellerOrders == users[u].sellerOrders
    requires forall v :: 0 <= v < |users| && v != u ==> users[v].email != w.email
    ensures Consistent(users[u := w], products, orders)
  {
    var after := users[u := w];
    forall v | 0 <= v < |after|
      ensures after[v].orders == IdsWhere(orders, BuyerIs(v))
      ensures after[v].sellerOrders == IdsWhere(orders, SellerIs(v))
    {
      assert users[v].orders == IdsWhere(orders, BuyerIs(v));
      assert users[v].sellerOrders == IdsWhere(orders, SellerIs(v));
    }
    forall i, j | 0 <= i < j < |after|
      ensures after[i].email != after[j].email
    {
      if i != u && j != u {
        assert after[i] == users[i] && after[j] == users[j];
      }
    }
  }

  /** A user who is not yet named by any order has empty order lists. */
  lemma NoOrdersYet(orders: seq<Order>, u: UserId)
    requires forall i :: 0 <= i < |orders| ==> orders[i].buyerId != u && orders[i].sellerId != u
    ensures IdsWhere(orders, BuyerIs(u)) == [] && IdsWhere(orders, SellerIs(u)) == []
  {
    IdsWhereSpec(orders, BuyerIs(u));
    IdsWhereSpec(orders, SellerIs(u));
  }

  class Db {
    var users: seq<User>
    var products: map<ProductId, Product>
    var orders: seq<Order>

    /** The store invariant, on the current collections. */
    ghost predicate Valid()
      reads this
    {
      Consistent(users, products, orders)
    }

    constructor ()
      ensures Valid()
      ensures users == [] && products == map[] && orders == []
    {
      users, products, orders := [], map[], [];
    }
  }
}

=== FILE: text.dfy ===
/** Character-level helpers: ASCII lower-casing, suffix and substring tests,
    and decimal rendering of numbers (JavaScript's `toString` on a natural). */
module Text {

  /** Lower-cases one ASCII letter; every other character is left alone. */
  function LowerChar(c: char): char {
    if 'A' <= c <= 'Z' then (c as int + 32) as char else c
  }

  /** `toLowerCase`, restricted to ASCII letters. */
  function Lower(s: string): (r: string)
    ensures |r| == |s|
    ensures forall i :: 0 <= i < |s| ==> r[i] == LowerChar(s[i])
    decreases |s|
  {
    if s == [] then [] else [LowerChar(s[0])] + Lower(s[1..])
  }

  lemma {:induction false} LowerIdempotent(s: string)
    ensures Lower(Lower(s)) == Lower(s)
  {
    var once := Lower(s);
    var twice := Lower(once);
    assert forall i :: 0 <= i < |s| ==> twice[i] == once[i];
  }

  predicate IsPrefix(p: string, s: string) {
    |p| <= |s| && s[..|p|] == p
  }

  predicate EndsWith(s: string, suffix: string) {
    |suffix| <= |s| && s[|s| - |suffix|..] == suffix
  }

  /** `s.includes(sub)`: `sub` occurs somewhere in `s`. */
  predicate Contains(s: string, sub: string)
    decreases |s|
  {
    IsPrefix(sub, s) || (|s| > 0 && Contains(s[1..], sub))
  }

  /** `Contains` holds exactly when `sub` starts at some position of `s`. */
  lemma {:induction false} ContainsAt(s: string, sub: string)
    ensures Contains(s, sub) <==> exists i :: 0 <= i <= |s| && IsPrefix(sub, s[i..])
    decreases |s|
  {
    assert s[0..] == s;
    if |s| > 0 {
      ContainsAt(s[1..], sub);
      if Contains(s[1..], sub) {
        var i :| 0 <= i <= |s| - 1 && IsPrefix(sub, s[1..][i..]);
        assert s[1..][i..] == s[i + 1..];
      }
      if exists i :: 0 <= i <= |s| && IsPrefix(sub, s[i..]) {
        var i :| 0 <= i <= |s| && IsPrefix(sub, s[i..]);
        if i > 0 {
          assert s[1..][i - 1..] == s[i..];
        }
      }
    }
  }

  // ----- decimal numbers -----

  function Pow10(k: nat): (p: nat)
    ensures p >= 1
  {
    if k == 0 then 1 else 10 * Pow10(k - 1)
  }

  function Digit(d: nat): char
    requires d < 10
  {
    ('0' as int + d) as char
  }

  predicate IsDigit(c: char) {
    '0' <= c <= '9'
  }

  predicate AllDigits(s: string) {
    forall i :: 0 <= i < |s| ==> IsDigit(s[i])
  }

  /** The decimal text of a natural number, without leading zeros. */
  function DecimalString(n: nat): (s: string)
    ensures |s| > 0
    decreases n
  {
    if n < 10 then [Digit(n)] else DecimalString(n / 10) + [Digit(n % 10)]
  }

  /** The value of a string of decimal digits. */
  function ParseDecimal(s: string): int
    decreases |s|
  {
    if s == [] then 0
    else ParseDecimal(s[..|s| - 1]) * 10 + (s[|s| - 1] as int - '0' as int)
  }

  /** The decimal text of an integer, with a leading '-' when negative. */
  function IntString(n: int): string {
    if n < 0 then "-" + DecimalString(-n) else DecimalString(n)
  }

  lemma {:induction false} ParseDecimalString(n: nat)
    ensures ParseDecimal(DecimalString(n)) == n
    decreases n
  {
    if n >= 10 {
      var s := DecimalString(n);
      assert s[..|s| - 1] == DecimalString(n / 10);
      ParseDecimalString(n / 10);
    }
  }

  lemma DecimalStringInjective(a: nat, b: nat)
    ensures DecimalString(a) == DecimalString(b) ==> a == b
  {
    ParseDecimalString(a);
    ParseDecimalString(b);
  }

  lemma {:induction false} DecimalStringDigits(n: nat)
    ensures AllDigits(DecimalString(n))
    decreases n
  {
    if n >= 10 {
      DecimalStringDigits(n / 10);
    }
  }

  /** A number with k + 1 digits is written with k + 1 characters. */
  lemma {:induction false} DecimalLength(n: nat, k: nat)
    requires Pow10(k) <= n < Pow10(k + 1)
    ensures |DecimalString(n)| == k + 1
    decreases k
  {
    if k > 0 {
      assert Pow10(k - 1) <= n / 10 < Pow10(k);
      DecimalLength(n / 10, k - 1);
    } else {
      assert n < 10;
    }
  }

  /** A positive number never starts with the digit zero. */
  lemma {:induction false} DecimalLeading(n: nat)
    requires n > 0
    ensures DecimalString(n)[0] != '0'
    decreases n
  {
    if n >= 10 {
      DecimalLeading(n / 10);
    }
  }
}

=== FILE: user_model.dfy ===
/** The user record: profile, credentials, cart, reviews received as a
    seller, and the ids of the orders the user bought and sold. */
module UserModel {
  import opened Common
  import opened Text
  import Crypto

  /** One cart line.  The schema makes the product required and gives the
      quantity a default of 1. */
  datatype CartItem = CartItem(product: ProductId, quantity: int)

  /** The quantity a cart line document gets when it is cast. */
  function CartQuantity(q: Option<int>): (n: int)
    ensures q.None? ==> n == 1
    ensures q.Some? ==> n == q.value
  {
    match q
    case None => 1
    case Some(v) => v
  }

  datatype SellerReview = SellerReview(reviewer: UserId, rating: int, comment: Option<string>)

  datatype User = User(
    firstName: string,
    lastName: string,
    email: string,
    age: Option<int>,
    contactNumber: Option<string>,
    password: string,          // the bcrypt hash once the user is saved
    cart: seq<CartItem>,
    sellerReviews: seq<SellerReview>,
    orders: seq<OrderId>,       // orders placed as buyer
    sellerOrders: seq<OrderId>) // orders received as seller

  const IiitSuffix: string := "@iiit.ac.in"

  /** The e-mail validator: the address ends with "@iiit.ac.in", in any case. */
  predicate IsIiitEmail(email: string) {
    EndsWith(Lower(email), IiitSuffix)
  }

  /** Spelled out: the last eleven characters, lower-cased, are the suffix. */
  lemma IiitEmailByCharacters(email: string)
    ensures IsIiitEmail(email) <==>
            |email| >= |IiitSuffix| &&
            forall k :: 0 <= k < |IiitSuffix| ==>
              LowerChar(email[|email| - |IiitSuffix| + k]) == IiitSuffix[k]
  {
    var low := Lower(email);
    if |email| >= |IiitSuffix| {
      var tail := low[|low| - |IiitSuffix|..];
      assert forall k :: 0 <= k < |IiitSuffix| ==>
        tail[k] == LowerChar(email[|email| - |IiitSuffix| + k]);
    }
  }

  /** The check ignores case: an address and its lower-cased form agree. */
  lemma IiitEmailIgnoresCase(email: string)
    ensures IsIiitEmail(Lower(email)) == IsIiitEmail(email)
  {
    LowerIdempotent(email);
  }

  predicate RatingInRange(r: SellerReview) {
    1 <= r.rating <= 5
  }

  /** What the schema demands of a saved user: the required text paths are
      non-empty, the e-mail passes the validator, every review rating lies
      in 1..5. */
  predicate SchemaValid(u: User) {
    && |u.firstName| > 0
    && |u.lastName| > 0
    && IsIiitEmail(u.email)
    && |u.password| > 0
    && forall k :: 0 <= k < |u.sellerReviews| ==> RatingInRange(u.sellerReviews[k])
  }

  /** `email` is unique among users. */
  predicate DistinctEmails(users: seq<User>) {
    forall i, j :: 0 <= i < j < |users| ==> users[i].email != users[j].email
  }

  /** `getFullName`: first name, one space, last name. */
  function FullName(u: User): (r: string)
    ensures |r| == |u.firstName| + 1 + |u.lastName|
    ensures r[..|u.firstName|] == u.firstName
    ensures r[|u.firstName|] == ' '
    ensures r[|u.firstName| + 1..] == u.lastName
  {
    u.firstName + " " + u.lastName
  }

  /** The pre-save hook: a modified password (then still in clear) is
      replaced by its hash; an unmodified one is left as it is. */
  function PreSave(u: User, passwordModified: bool): (r: User)
    ensures r.(password := u.password) == u
    ensures passwordModified ==> Crypto.Matches(u.password, r.password)
    ensures !passwordModified ==> r == u
  {
    if passwordModified then u.(password := Crypto.HashOf(u.password)) else u
  }

  /** Saving a user whose password was not touched keeps the stored hash, so
      the old password still matches; hashing it again would lose it. */
  lemma SaveKeepsLogin(u: User, raw: string)
    requires Crypto.Matches(raw, u.password)
    ensures Crypto.Matches(raw, PreSave(u, false).password)
    ensures !Crypto.Matches(raw, PreSave(u, true).password)
  {
    var twice := PreSave(u, true).password;
    assert |twice| == |Crypto.HashPrefix| + |Crypto.HashPrefix| + |raw|;
  }
}
